=== FILE: README.md ===
# gitks keyserver initialisation, modelled in Dafny

`gitks` is a keyserver that keeps its keys inside the git repository it serves.
The keys live on two internal branches:

- `<base>/test` holds keys before they are finalised;
- `<base>/final` holds finalised keys.

Each branch is checked out in its own worktree. The worktrees sit under a
randomly named staging directory beneath a base directory, which defaults to
the user's home.

This project models the core of that design:

- `init`, the provisioning sequence of `WorkTreeGitKeyServerImpl`.
  It runs `git init`. It then refuses if the requested base branch, or one of
  its two keys branches, is already listed. Otherwise it records the local
  identity and creates both keys branches as orphan branches in fresh
  worktrees, each with an empty first commit. It registers the base branch in
  the local config, creates the `test` and `final` keys directories under the
  repository, and registers the keys directory and `gitks` as the repository's
  keyserver.
- `generate_worktree` of `BaseDirWorkTreeGenerator`, which lays out the
  worktrees.
- The constructor's defaults, as the input `init` works from.
- `extract_repo_name` and `is_git_repo`.
- The naming constants: branch names, config keys and directories.

Modules:

- `Wrappers`: `Option` and `Result`.
- `Paths`: POSIX `pathlib` paths. A path is an absolute flag plus normalised
  segments. The module covers parsing, joining, rendering and ancestry.
- `Constants`: the names from `constants.py`.
- `RepoName`: `extract_repo_name`, with `urlparse`'s path component worked out
  per section 3 of RFC 3986 after `urlsplit`'s clean-up of the text, less the
  `;params` of its last segment for the schemes in `uses_params`, and
  `is_git_repo`.
- `Git`: an abstract repository and the effect of each git invocation `init`
  issues:
  - the repository holds branches, the directories and other files on disk,
    registered worktrees, the local config and the current branch;
  - `worktree add -b` refuses a branch name that breaks git's ref-name rules
    (those of `git check-ref-format`);
  - `git branch --list` yields the set of whitespace tokens of its output, and
    fails for a pattern starting with `-`, which git reads as options it
    refuses, unless the pattern is a format option (`--format=…`, or its
    abbreviation `--form=…` or `--forma=…`), which git takes as the output
    format.
- `Worktrees`: the generator. It is a pure planner that returns the staging
  directory and the exact git invocations, in order.
- `KeyServer`: the constructor and `init`. `init` returns
  `Done(state)` or `Failed(state, error)`, where `state` is the repository as
  far as `init` got. Nothing is rolled back.
- `InitProperties`: what `init` guarantees.

Randomness, the home and current directories, and the exit status git gives
are parameters:

- `pick` stands for the successive `random.choice` draws;
- `cwd` and `home` stand for `Path.cwd()` and `Path.home()`;
- `revParseExit` stands for the exit status of the `rev-parse` check.

## Model

| member | source | states |
|---|---|---|
| RepoName.ExtractRepoName | src/gitks/core/utils.py:13-33 | the extracted name never contains `/`: it is always a single path component |
| RepoName.ExtractFromUrl | src/gitks/core/utils.py:29-33 | for any text holding `://` that `urlsplit`'s clean-up turns into `scheme://host/dir/name.git`, with or without a trailing query or fragment, the name is `name`, for a network location `host` that is ASCII and free of `[` and `]`; when the scheme is in `uses_params` (such as `http`, `https` or `ftp`) and `name` holds `;`, it is the part of `name` before its first `;`, less one `.git` |
| RepoName.ExtractFromCleanUrl | src/gitks/core/utils.py:29-33 | a URL `scheme://host/dir/name.git`, with or without a query or fragment and with no space or control character, names `name` for an ASCII network location free of `[` and `]`, with the same `;params` cut as RepoName.ExtractFromUrl |
| RepoName.CutParams | src/gitks/core/utils.py:29 | `_splitparams` keeps a prefix of the path; RepoName.CutParamsAfterSlash states which |
| RepoName.CutParamsAfterSlash | src/gitks/core/utils.py:29 | for a path `dir/leaf`, `_splitparams` keeps `dir/` and the part of `leaf` before its first `;`, all of `leaf` when it has none |
| RepoName.CutGitLeaf | src/gitks/core/utils.py:29-32 | cutting `w.git` at its first `;` and stripping `.git` gives `w` when `w` has no `;`, and otherwise the part of `w` before its first `;`, less one `.git` |
| RepoName.StripGitSuffix | src/gitks/core/utils.py:31-32 | the stripped name is a prefix of the name; RepoName.StripOneGitSuffix and RepoName.StripsOnlyOneGitSuffix state that exactly one `.git` goes |
| RepoName.BeforeQuery | src/gitks/core/utils.py:29 | the path part ends before the query or fragment: it is a prefix of the text holding neither `?` nor `#` |
| RepoName.PlainNetlocAll | src/gitks/core/utils.py:29 | the recursive statement that a network location is safe from `urlsplit`'s `ValueError`s (ASCII, with no `[` or `]`) says the same as the statement about each of its characters |
| RepoName.NoSpaceOrControlAll | src/gitks/core/utils.py:29 | the recursive statement that a text holds no space or control character says the same as the statement about each of its characters |
| RepoName.ExtractFromPathWithGitSuffix | src/gitks/core/utils.py:29-33 | a local or scp-style path `dir/name.git` yields `name` |
| RepoName.ExtractFromPath | src/gitks/core/utils.py:29-33 | a path `dir/name` whose last component does not end in `.git` yields that component unchanged |
| RepoName.ExtractPlainName | src/gitks/core/utils.py:29-33 | a bare name without `/`, `.git` suffix or `://` is returned as it is |
| RepoName.UrlPathOf | src/gitks/core/utils.py:29 | the path `urlparse` takes from a URL that cleans up to `scheme://host/path?query`, with `host` ASCII and free of `[` and `]`, is exactly the `/path` part, cut by `_splitparams` when the lower-cased scheme is in `uses_params` |
| RepoName.UrlPath | src/gitks/core/utils.py:29 | the path `urlparse` returns never holds `?` or `#`; what it is for a given URL, `;params` cut included, is stated by RepoName.UrlPathOf |
| RepoName.LStrip | src/gitks/core/utils.py:29 | `urlsplit`'s first clean-up: the result is a suffix of the text, every character dropped is a space or control character, and the result is empty or starts above space |
| RepoName.DropUnsafe | src/gitks/core/utils.py:29 | `urlsplit`'s second clean-up: the result is no longer than the text and holds no tab, carriage return or line feed; RepoName.DropUnsafeKeeps states which characters remain |
| RepoName.DropUnsafeKeeps | src/gitks/core/utils.py:29 | a character survives the deletion exactly when it is in the text and is not a tab, carriage return or line feed |
| RepoName.SanitiseClean | src/gitks/core/utils.py:29 | text that starts above space and holds no tab, carriage return or line feed is split as it stands |
| RepoName.SanitiseIdempotent | src/gitks/core/utils.py:29 | cleaning up cleaned-up text changes nothing |
| RepoName.SanitiseDropsTab | src/gitks/core/utils.py:29 | a tab between two otherwise clean texts is deleted, the two joined |
| RepoName.StripsOnlyOneGitSuffix | src/gitks/core/utils.py:30-32 | a path `dir/w.git.git` names `w.git`: exactly one `.git` is stripped |
| RepoName.Basename | src/gitks/core/utils.py:30 | `os.path.basename` gives the longest `/`-free suffix: it ends the text and is preceded by `/` unless it is the whole text |
| RepoName.BasenameAfterSlash | src/gitks/core/utils.py:30 | the basename of `dir/w`, for `w` without `/`, is `w`, whatever `dir` is |
| RepoName.ScpNoSeparator | src/gitks/core/utils.py:29 | an scp-style address `host:path` (path not starting with `/`) contains no `://`, so it is treated as a path and not parsed as a URL |
| RepoName.ExampleHttpsUrl | src/gitks/core/utils.py:17-18 | the name of `https://github.com/user/my-repo.git` is `my-repo` |
| RepoName.ExampleScpAddress | src/gitks/core/utils.py:19-20 | the name of `git@github.com:user/my-repo.git` is `my-repo` |
| RepoName.ExampleLocalPath | src/gitks/core/utils.py:21-22 | the name of `/home/user/code/my-local-repo` is `my-local-repo` |
| RepoName.ExampleRelativePath | src/gitks/core/utils.py:23-24 | the name of `../relative/path/to/repo.git` is `repo` |
| RepoName.ExampleUrlWithQuery | src/gitks/core/utils.py:25-26 | the name of `https://myserver.com/repo.git?token=abc123` is `repo`: the query is not part of the name |
| RepoName.ExampleUrlWithParams | src/gitks/core/utils.py:29-33 | the name of `https://h/a;b.git` is `a`: `https` takes parameters, so `;b.git` is cut off |
| RepoName.ExampleSshUrlKeepsParams | src/gitks/core/utils.py:29-33 | the name of `ssh://h/a;b.git` is `a;b`: `ssh` takes no parameters |
| RepoName.ExampleUrlWithTab | src/gitks/core/utils.py:29-33 | the name of `https://h/re<tab>po.git` is `repo`: the tab is deleted before the URL is split |
| RepoName.IsGitRepo | src/gitks/core/utils.py:36-62 | the answer is true exactly when the path exists, is a directory and git's work-tree check exits 0; git is consulted only for an existing directory, with `-C <path> rev-parse --is-inside-work-tree` |
| Constants.DefaultKeysBaseBranch | src/gitks/core/constants.py:15-18 | the default base branch is `__gitks_internal/keys`, with keys branches `__gitks_internal/keys/test` and `__gitks_internal/keys/final` |
| Constants.ConfigKeySpelling | src/gitks/core/constants.py:49-56 | the config keys are `gitks.keys.branch`, `gitks.keys.dir` and `enc.keyserver`; the first two share the `gitks.keys.` section |
| Constants.ConfigKeysDistinct | src/gitks/core/constants.py:49-56 | the three config keys `init` registers are pairwise distinct, so no registration overwrites another |
| Constants.GitKsDirShape | src/gitks/core/constants.py:24-31 | the keys directory is `<git dir>/.gpg-home/.gitks` |
| Constants.KeyBranchesDistinct | src/gitks/core/impl.py:176-177 | the base branch and its two keys branches are three different names, all starting with the base branch |
| Constants.KeyBranchesNotNested | src/gitks/core/impl.py:176-177 | neither keys branch lies in the other's ref namespace, so git can hold both |
| Constants.InternalBranchesOutsideKeysNamespace | src/gitks/core/constants.py:53-58 | the keyserver and repo-configuration branches do not start with the default base branch |
| Paths.Parse | src/gitks/core/impl.py:88 | parsing yields only components `pathlib` keeps, and the path is absolute exactly when the text starts with `/` |
| Paths.Join | src/gitks/core/impl.py:94 | no contract of its own: an absolute right operand replaces the left one; Worktrees.RandomNameParses and Worktrees.BranchDirDirectlyBeneath state where the joined paths lie |
| Paths.Render | src/gitks/core/impl.py:213-215 | no contract of its own; Paths.ParseRender states that rendering a normalised path and parsing it back is the identity |
| Paths.ParseRender | src/gitks/core/impl.py:213-215 | a normalised path rendered with `str()` parses back to the same path, so the registered keys directory names the directory that was created |
| Git.Exec | src/gitks/core/impl.py:96-105 | no contract of its own: the effect of one git invocation; Git.ExecGrows and Worktrees.BranchStep state what it keeps and adds, and refuses a `worktree add` for an invalid branch name, an existing branch or directory, a file on the path, or a ref clash; InitProperties.OptionLikeBaseFailsAtListing states that a listing pattern git reads as refused options fails, and InitProperties.FormatBaseFailsAtWorktree that a format pattern is listed |
| Git.RunAll | src/gitks/core/impl.py:183-221 | no contract of its own: the invocations in order, stopping at the first failure; Git.RunAllAppend and Git.RunAllGrows state its composition and what it keeps |
| Git.ListingTokens | src/gitks/core/impl.py:172-174 | every existing branch starting with the prefix is among the listed tokens; Git.ListingTokensExact states the converse |
| Git.ValidBranchAppend | src/gitks/core/impl.py:176-177 | a valid branch name followed by `/` and a valid `/`-free component not ending in `.` is a valid branch name, as git's ref-name rules require of `-b` |
| Git.ListingRefusedStar | src/gitks/core/impl.py:172-173 | the `*` appended to the base branch neither makes nor unmakes a refused or a format pattern: git refuses `<base>*` exactly when it would refuse `<base>` |
| Git.ListingTokensExact | src/gitks/core/impl.py:172-174 | apart from the `*` and `+` markers, a token of `git branch --list <prefix>*` is listed exactly when it is an existing branch starting with the prefix |
| Worktrees.RandomName | src/gitks/core/impl.py:87 | the staging name has the configured length (none for a non-positive length), and every character is an ASCII letter or digit |
| Worktrees.RandomNameCovers | src/gitks/core/impl.py:87 | every alphanumeric string of the right length is a possible staging name |
| Worktrees.RandomNameParses | src/gitks/core/impl.py:87-88 | the staging name is exactly one path component beneath the base directory, or none when it is empty |
| Worktrees.GenerateWorktree | src/gitks/core/impl.py:81-108 | the returned staging directory is the base directory plus the drawn name; there is one `worktree add` per branch, plus one commit each when orphan; each worktree of a relative branch name lies inside the staging directory |
| Worktrees.OrphanPlanLayout | src/gitks/core/impl.py:92-106 | in orphan mode the commands alternate: branch i's `worktree add` at position 2i, its empty commit at 2i+1 |
| Worktrees.PlainPlanLayout | src/gitks/core/impl.py:92-101 | without orphan, command i is the `worktree add` of branch i and no commits are issued |
| Worktrees.PlanArgv | src/gitks/core/impl.py:94-105 | the exact git argument vectors: `worktree add <dir> [--orphan] -b <branch>`, and in orphan mode `-C <dir> commit -m "initial commit for branch: <branch>" --allow-empty` |
| Worktrees.PlanVisitsBranches | src/gitks/core/impl.py:92-106 | the plan adds worktrees for exactly the requested branches, in the order given, and commits once per branch exactly in orphan mode |
| Worktrees.BranchDirDirectlyBeneath | src/gitks/core/impl.py:94 | a branch name that is a single component gets its worktree directly under the staging directory |
| Worktrees.PlanCommands | src/gitks/core/impl.py:92-106 | no contract of its own; Worktrees.OrphanPlanLayout, Worktrees.PlainPlanLayout and Worktrees.PlanVisitsBranches state its order and contents |
| Worktrees.BranchCommands | src/gitks/core/impl.py:94-105 | no contract of its own; Worktrees.PlanArgv states the argument vectors it yields |
| Worktrees.BranchStep | src/gitks/core/impl.py:96-105 | one branch's commands never remove anything or touch the config; they leave at most that branch's worktree behind; on success the branch name is one git accepts, the branch exists and its worktree is registered and on disk |
| Worktrees.OrphanStepSucceeds | src/gitks/core/impl.py:96-105 | on a repository where the branch name is valid, the branch, its directory and worktree are new, no file lies on the directory's path and no ref clashes, the orphan step succeeds and adds exactly the branch, the directory with its ancestors, and the worktree |
| Worktrees.PlanLeavesPrefix | src/gitks/core/impl.py:93-106 | however the plan ends, the worktrees it registered are those of a prefix of the branches, in order |
| Worktrees.PlanComplete | src/gitks/core/impl.py:93-106 | when every command succeeds, every branch name is valid, every branch exists with its worktree registered in order and its directory on disk |
| Worktrees.PlanGrows | src/gitks/core/impl.py:93-106 | however the plan ends, no branch, directory, file or worktree is lost and the config is unchanged |
| KeyServer.NewServer | src/gitks/core/impl.py:116-155 | the root defaults to the current directory and the generator to one at the home directory with 10-character names; the author and committer variables are set exactly for a non-empty name or email, to that value |
| KeyServer.WithIdentity | src/gitks/core/impl.py:183-192 | the config gets `user.name` and `user.email` exactly when they were supplied non-empty; every other key keeps its value |
| KeyServer.IdentityRun | src/gitks/core/impl.py:183-192 | on a repository the identity writes always succeed and change only the config |
| KeyServer.Mkdir | src/gitks/core/impl.py:205-211 | `mkdir(parents=True)` succeeds exactly when the path is not an existing directory and no file stands at it or above it; an existing directory or file is reported as existing (`FileExistsError`), a file above it as not a directory (`NotADirectoryError`); on success it adds just the path and its ancestors and changes nothing else |
| KeyServer.Init | src/gitks/core/impl.py:157-224 | no contract of its own; the InitProperties lemmas state what it guarantees, including the stop after `git init` when git refuses the listing (InitProperties.OptionLikeBaseFailsAtListing) and the later failure for a format-option base (InitProperties.FormatBaseFailsAtWorktree) |
| KeyServer.Provision | src/gitks/core/impl.py:183-201 | no contract of its own; InitProperties.ProvisionDone and InitProperties.ProvisionNeverCollides state its outcome |
| KeyServer.MakeKeysDirs | src/gitks/core/impl.py:205-221 | no contract of its own; InitProperties.MakeKeysDirsDone, InitProperties.MakeKeysDirsFailed and InitProperties.MakeKeysDirsSucceeds state its outcome |
| InitProperties.CollisionIff | src/gitks/core/impl.py:171-181 | for a base branch other than `*` or `+`, `init` finds a collision exactly when the base branch, its test branch or its final branch exists |
| InitProperties.PlusMarkerCollides | src/gitks/core/impl.py:172-178 | a base branch named `+` is refused as soon as any branch starting with `+` is checked out in a worktree, though no such keys branch exists |
| InitProperties.DefaultListingSkipsInternal | src/gitks/core/impl.py:172-174 | with the default base branch, the keyserver and repo-configuration branches never appear among the listed tokens |
| InitProperties.ProvisionNeverCollides | src/gitks/core/impl.py:183-220 | after the collision check, a failure is a git failure or a refused `mkdir`, never a collision |
| InitProperties.InitCollision | src/gitks/core/impl.py:171-181 | `init` raises the already-exists error, with its message and exit code, exactly when git lists the branches (the base does not start with `-`, or is a format option) and the listing collides; then only `git init` has happened |
| InitProperties.OptionLikeBaseFailsAtListing | src/gitks/core/impl.py:171-174 | a base branch starting with `-` that is not a format option makes `git branch --list <base>*` fail, so `init` stops with that git failure right after `git init`, before any identity is written |
| InitProperties.FormatBaseFailsAtWorktree | src/gitks/core/impl.py:171-196 | a base branch starting with `--format=` (or `--form=`, `--forma=`) is listed; without a collision, `init` writes the identity and then fails at the test branch's `worktree add`, its name being one git refuses, leaving the repository `git init` made with only the identity added |
| InitProperties.InitProvisions | src/gitks/core/impl.py:171-183 | a listable base without a collision goes on to provisioning the repository `git init` left |
| InitProperties.ProvisionDone | src/gitks/core/impl.py:183-201 | when the git steps succeed, the identity and base branch are registered, both keys branch names are valid and both branches exist, their worktrees are registered in order and on disk, and nothing was lost |
| InitProperties.MakeKeysDirsDone | src/gitks/core/impl.py:205-220 | the keys directories are created only if neither existed and no file stands at or above them; then both exist and the keys directory and `gitks` keyserver are registered |
| InitProperties.MakeKeysDirsFailed | src/gitks/core/impl.py:205-211 | a refused `mkdir` names one of the two keys directories; reported as existing, that path is a directory or file; reported as not a directory, a file stands at or above it; the config is as the git steps left it |
| InitProperties.MakeKeysDirsSucceeds | src/gitks/core/impl.py:205-221 | when neither keys directory exists and no file stands at or above either, both are created and the registrations complete |
| InitProperties.InitDoneSteps | src/gitks/core/impl.py:157-224 | `init` completes only if the collision check passed, every git step succeeded and both directories were created |
| InitProperties.InitDoneConfig | src/gitks/core/impl.py:157-224 | a completed `init` registers the base branch, the keys directory as given and `gitks` as keyserver; it sets the identity exactly when supplied and leaves every other config key as it was |
| InitProperties.InitDoneRepo | src/gitks/core/impl.py:157-224 | a completed `init` leaves both keys branches, whose names are valid, their worktrees after the existing ones (test first) and both keys directories, which did not exist and had no file above them before; files are unchanged and nothing that existed is gone |
| InitProperties.ExistingKeysDirRefused | src/gitks/core/impl.py:205-211 | if either keys directory already exists, or a file stands at or above either, `init` does not complete; InitProperties.ExistingTestDirFailsAtMkdir and InitProperties.ExistingFinalDirFailsAtMkdir state the exact outcome |
| InitProperties.ExistingTestDirFailsAtMkdir | src/gitks/core/impl.py:205-207 | with a listable base, no collision and every git step successful, an existing test keys directory makes `init` fail with `FileExistsError` on that directory, in the state the git steps left |
| InitProperties.ExistingFinalDirFailsAtMkdir | src/gitks/core/impl.py:205-211 | with a listable base, no collision, every git step successful and the test keys directory creatable, an existing final keys directory makes `init` fail with `FileExistsError` on it, after the test directory and its ancestors were created |
| InitProperties.GitFileRefused | src/gitks/core/impl.py:205-211 | where `<root>/<git dir>` is a file, as in a linked worktree, `init` with the keys directory beneath it does not complete |
| InitProperties.InvalidKeyBranchRefused | src/gitks/core/impl.py:176-196 | if either keys branch name is one git refuses, `init` does not complete |
| InitProperties.EmptyBaseRefused | src/gitks/core/impl.py:176-196 | an empty base branch gives the keys branch `/test`, so `init` does not complete |
| InitProperties.KeyBranchesValid | src/gitks/core/impl.py:176-177 | a valid base branch gives valid test and final branches |
| InitProperties.DefaultKeyBranchesValid | src/gitks/core/constants.py:15-18 | the default base branch and its two keys branches are names git accepts |
| InitProperties.WordComponentValid | src/gitks/core/constants.py:15-16 | a run of lower-case letters and underscores, as `__gitks_internal` is, is a ref component git accepts |
| InitProperties.InitMkdirRefused | src/gitks/core/impl.py:195-215 | a keys directory refused by `mkdir`, as existing or as beneath a file, leaves the keys branches, their worktrees and the base-branch registration behind, without the directory and keyserver registrations |
| InitProperties.KeysWorktreesApart | src/gitks/core/impl.py:176-196 | the two keys worktrees are different directories and neither contains the other |
| InitProperties.KeysDirsApart | src/gitks/core/impl.py:205-211 | creating the test keys directory never creates the final one |
| InitProperties.FreshPlanRuns | src/gitks/core/impl.py:195-196 | on a repository without branches or worktrees, with valid keys branch names and no file on the worktree paths, the keys plan creates exactly the two keys branches and their worktrees, test first |
| InitProperties.FreshProvisionRuns | src/gitks/core/impl.py:183-201 | on a repository without branches or worktrees, with valid keys branch names and no file on the worktree paths, all git steps succeed, only the worktree directories are added and files are unchanged |
| InitProperties.FreshInitCompletes | src/gitks/core/impl.py:157-224 | on a repository without branches or worktrees, with valid keys branch names, no directory or file in the way of the worktrees and keys directories, and neither worktree inside a keys directory, `init` runs to completion |

## Left out

- Running git: every invocation is modelled by its effect on the abstract
  repository. Git's own messages, hooks and config scopes beyond `--local`
  are not modelled.
- Failure of `git init` and of a config write: on a directory both succeed in
  the model. A repository that git cannot create or write to is outside it.
- The commit identity. A commit that fails because no identity is configured
  is not modelled. Neither is the fact that the default generator's git does
  not carry the constructor's author and committer overrides.
- Logging: the `logger` calls have no effect on the outcome.
- `random.choice`: modelled as the `pick` parameter, one draw per position.
- `Path.home()` and `Path.cwd()`: modelled as the `home` and `cwd` parameters.
- The git command's `root_dir`: `init` passes it to the generator as
  `repo_path` (impl.py:195). It is an attribute of `SimpleGitCommand`, from a
  library that is not part of this model, and is taken to be the directory
  the command was built on, `repo_root_dir`. The server's own `root_dir`
  (impl.py:242-245), which places the keys directories, is `repo_root_dir` in
  the model as in the source.
- KeyServer.NewServer: a supplied generator is taken to be a
  `BaseDirWorkTreeGenerator` running its git in the server's repository.
  Another `WorkTreeGenerator` implementation, or a `BaseDirWorkTreeGenerator`
  carrying its own `git` for a different repository (impl.py:61, 90), is not
  modelled.
- The key validator: it is stored by the constructor but not used by `init`.
- The operations stubbed out after `init` (impl.py:226-240).
  `base.py`, `model.py` and `__init__.py` are not part of this model.
- The test file's expectations. It exercises a different class that takes a
  `lenient` flag. Its expected error text differs from the message raised at
  impl.py:179.
- KeyServer.Init: the exit code is a name only. The numeric value of
  `ERR_STATE_ALREADY_EXISTS` lives in a library that is not part of this model.
- Git.ListingTokens: glob characters in the base branch are treated as
  literal. The pattern is modelled as a prefix match. For a format-option
  pattern, git prints the format once per branch instead of the names; the
  model's tokens for it are those of a plain listing.
- Git.Exec: a format-option pattern is always listed. Git fails on a format
  it cannot parse, such as one naming an unknown `%(field)`; the model does
  not parse formats.
- InitProperties.CollisionIff: the check is by listing tokens only. A branch
  whose ref clashes with a keys branch (for example a branch named exactly
  `<base>/test/x`) is not a collision. In orphan mode `worktree add` does not
  create the ref, so the clash surfaces later as a failed empty commit,
  after the worktree was added, reported as a git failure.
- RepoName.ExtractRepoName: the `ValueError`s `urlsplit` raises are not
  modelled, and the model returns a name where the source raises. There are
  three: an unbalanced `[` or `]` in the network location; a bracketed host
  that is neither an IPv6 address nor an IPvFuture literal
  (`_check_bracketed_host`); and a non-ASCII network location whose NFKC form
  holds one of `/?#@:` that the text did not (`_checknetloc`). Its clean-up of the text (leading
  spaces and control characters stripped; tab, carriage return and line feed
  deleted) and `urlparse`'s `;params` cut for the schemes in `uses_params`
  are modelled.
- ExtractFromUrl: promises nothing for a network location holding `[`, `]`
  or a non-ASCII character, because `urlsplit`'s IPv6 and NFKC checks are
  not modelled. This includes valid bracketed IPv6 hosts such as `[::1]`,
  for which the source does return a name.
- ExtractFromCleanUrl: promises nothing for such network locations, for the
  same reason.
- UrlPathOf: promises nothing for such network locations, for the same
  reason.
- RepoName.IsGitRepo: a missing `git` executable raises `FileNotFoundError`
  in the source. The model only sees an exit status.
- Paths: the filesystem is two sets of paths, directories and other files.
  Symbolic links, permissions and directory contents are not modelled.
- Paths.Parse: `PurePosixPath` keeps exactly two leading slashes (`//x`) as
  a root of its own; the model reads it as `/x`.
- Git.Exec: `git worktree add` also accepts an existing empty directory.
  The model refuses every existing directory, as it does not track what a
  directory holds.

=== FILE: constants.dfy ===
/** The names `gitks` derives its branches, config keys and directories from. */
module Constants {
  import opened Paths

  const GitKsStr: string := "gitks"
  const GitKsBranchRoot: string := "__" + GitKsStr + "_internal"
  const GitKsKeysStr: string := "keys"
  /** Base branch under which the keys branches are namespaced. */
  const GitKsKeysBaseBranch: string := GitKsBranchRoot + "/" + GitKsKeysStr

  const RepoGpgHomeStr: string := ".gpg-home"
  const GitKsDirStr: string := "." + GitKsStr

  /** Keys wait in this branch and directory before being finalised. */
  const TestStr: string := "test"
  /** Finalised keys live in this branch and directory. */
  const FinalStr: string := "final"

  const BranchStr: string := "branch"
  const DirStr: string := "dir"

  const GitKsKeysConfigKey: string := GitKsStr + "." + GitKsKeysStr
  const GitKsBranchConfigKey: string := GitKsKeysConfigKey + "." + BranchStr
  const GitKsDirConfigKey: string := GitKsKeysConfigKey + "." + DirStr

  const EncStr: string := "enc"
  const KeyserverStr: string := "keyserver"
  const ConfStr: string := "conf"
  const KeyserverConfigKey: string := "enc." + KeyserverStr
  const KeyserverBranchName: string := "__" + EncStr + "_internal/" + KeyserverStr + "/" + ConfStr
  /** Branch holding the repository-wide configuration. */
  const RepoConfBranch: string := "__enc_internal/conf/main"

  /** `REPO_GPG_HOME`: the GPG home inside the git metadata directory `gitDir`. */
  function RepoGpgHome(gitDir: Path): Path {
    Join(gitDir, Path(false, [RepoGpgHomeStr]))
  }

  /** `GIT_KS_DIR`: the directory private to `gitks`, inside the GPG home. */
  function GitKsDir(gitDir: Path): Path {
    Join(RepoGpgHome(gitDir), Path(false, [GitKsDirStr]))
  }

  /** The branch the test keys are committed on. */
  function TestBranch(base: string): string {
    base + "/" + TestStr
  }

  /** The branch the final keys are committed on. */
  function FinalBranch(base: string): string {
    base + "/" + FinalStr
  }

  lemma DefaultKeysBaseBranch()
    ensures GitKsKeysBaseBranch == "__gitks_internal/keys"
    ensures TestBranch(GitKsKeysBaseBranch) == "__gitks_internal/keys/test"
    ensures FinalBranch(GitKsKeysBaseBranch) == "__gitks_internal/keys/final"
  {
  }

  /** The exact config-key spellings, and the `gitks.keys` namespace they extend. */
  lemma ConfigKeySpelling()
    ensures GitKsKeysConfigKey == "gitks.keys"
    ensures GitKsBranchConfigKey == "gitks.keys.branch"
    ensures GitKsDirConfigKey == "gitks.keys.dir"
    ensures GitKsKeysConfigKey + "." <= GitKsBranchConfigKey
    ensures GitKsKeysConfigKey + "." <= GitKsDirConfigKey
    ensures KeyserverConfigKey == "enc.keyserver"
    ensures GitKsStr == "gitks"
  {
  }

  /** The three config keys `init` writes are pairwise distinct. */
  lemma ConfigKeysDistinct()
    ensures GitKsBranchConfigKey != GitKsDirConfigKey
    ensures GitKsBranchConfigKey != KeyserverConfigKey
    ensures GitKsDirConfigKey != KeyserverConfigKey
  {
    assert GitKsBranchConfigKey[0] != KeyserverConfigKey[0];
    assert GitKsDirConfigKey[0] != KeyserverConfigKey[0];
  }

  /** `GIT_KS_DIR` is the three-component path `GIT_DIR/.gpg-home/.gitks`. */
  lemma GitKsDirShape(gitDir: string)
    requires IsSegment(gitDir)
    ensures GitKsDir(Path(false, [gitDir])) == Path(false, [gitDir, ".gpg-home", ".gitks"])
    ensures Render(GitKsDir(Path(false, [gitDir]))) == gitDir + "/.gpg-home/.gitks"
  {
    var segs := [gitDir, RepoGpgHomeStr, GitKsDirStr];
    assert [gitDir] + [RepoGpgHomeStr] + [GitKsDirStr] == segs;
    assert JoinSegments(segs[2..]) == ".gitks";
    assert JoinSegments(segs[1..]) == ".gpg-home/.gitks";
  }

  /** For every base, the base, test and final branch names are pairwise distinct
      and all start with the base. */
  lemma KeyBranchesDistinct(base: string)
    ensures base != TestBranch(base) && base != FinalBranch(base)
    ensures TestBranch(base) != FinalBranch(base)
    ensures base <= TestBranch(base) && base <= FinalBranch(base)
  {
  }

  /** Neither branch is a `/`-namespace of the other, so git can hold both refs. */
  lemma KeyBranchesNotNested(base: string)
    ensures !(TestBranch(base) + "/" <= FinalBranch(base))
    ensures !(FinalBranch(base) + "/" <= TestBranch(base))
  {
    var t := TestBranch(base);
    var f := FinalBranch(base);
    assert t[|base| + 1] == 't';
    assert f[|base| + 1] == 'f';
  }

  /** The internal configuration branches lie outside the default keys namespace. */
  lemma InternalBranchesOutsideKeysNamespace()
    ensures !(GitKsKeysBaseBranch <= RepoConfBranch)
    ensures !(GitKsKeysBaseBranch <= KeyserverBranchName)
    ensures KeyserverBranchName == "__enc_internal/keyserver/conf"
  {
    assert GitKsKeysBaseBranch[2] == 'g';
    assert RepoConfBranch[2] == 'e';
    assert KeyserverBranchName[2] == 'e';
  }
}

=== FILE: git.dfy ===
/** Git as seen by `gitks`: an abstract repository record and the effect of
    each git invocation the keyserver issues on it. */
module Git {
  import opened Wrappers
  import opened Paths

  /** A linked worktree: its directory and the branch checked out there. */
  datatype Worktree = Worktree(path: Path, branch: string)

  /** The repository state the keyserver reads and mutates.
      `current` is the branch checked out in the main worktree; `dirs` and
      `files` are the directories and the other files that exist on disk. */
  datatype Repo = Repo(
    isRepo: bool,
    branches: set<string>,
    current: Option<string>,
    config: map<string, string>,
    dirs: set<Path>,
    files: set<Path>,
    worktrees: seq<Worktree>)

  /** The git invocations issued by the modelled code. */
  datatype Command =
    | InitRepo
    | ListBranches(pattern: string)
    | SetConfig(key: string, value: string)
    | AddWorktree(path: Path, orphan: bool, branch: string)
    | Commit(dir: Path, message: string)

  /** The argument vector handed to git, global `-C` option included. */
  function Argv(c: Command): seq<string> {
    match c
    case InitRepo => ["init"]
    case ListBranches(p) => ["branch", "--list", p]
    case SetConfig(k, v) => ["config", "--local", k, v]
    case AddWorktree(p, o, b) =>
      ["worktree", "add", Render(p)] + (if o then ["--orphan"] else []) + ["-b", b]
    case Commit(d, m) => ["-C", Render(d), "commit", "-m", m, "--allow-empty"]
  }

  /** Characters `git check-ref-format` refuses anywhere in a ref name:
      control characters, space, DEL and ``~^:?*[\``. */
  predicate ForbiddenRefChar(c: char) {
    c <= ' ' || c as int == 0x7F || c == '~' || c == '^' || c == ':' || c == '?'
    || c == '*' || c == '[' || c == '\\'
  }

  /** One `/`-separated component of a ref name: non-empty, not starting
      with `.`, not ending in `.lock`, without forbidden characters and
      without `..` or `@{`. */
  predicate ValidRefComponent(c: string) {
    && |c| > 0
    && c[0] != '.'
    && !(|c| >= 5 && c[|c| - 5..] == ".lock")
    && forall i :: 0 <= i < |c| ==>
         && !ForbiddenRefChar(c[i])
         && (i + 1 < |c| ==> !(c[i] == '.' && c[i + 1] == '.') && !(c[i] == '@' && c[i + 1] == '{'))
  }

  /** A name `git branch` and `git worktree add -b` accept: every component
      valid (so no leading, trailing or doubled `/`), no leading `-`, no
      trailing `.`, and neither `@` nor `HEAD`. */
  predicate ValidBranchName(b: string) {
    && b != ""
    && b[0] != '-'
    && b[|b| - 1] != '.'
    && b != "@" && b != "HEAD"
    && forall k :: 0 <= k < |Split(b)| ==> ValidRefComponent(Split(b)[k])
  }

  /** A valid branch name extended by one valid component that does not end
      in `.` is again a valid branch name. */
  lemma ValidBranchAppend(base: string, leaf: string)
    requires ValidBranchName(base)
    requires '/' !in leaf && ValidRefComponent(leaf) && leaf[|leaf| - 1] != '.'
    ensures ValidBranchName(base + "/" + leaf)
  {
    var n := base + "/" + leaf;
    SplitAppend(base, leaf);
    SplitNoSlash(leaf);
    assert n[0] == base[0] && n[|n| - 1] == leaf[|leaf| - 1];
    assert n != "HEAD" by {
      assert n[|base|] == '/';
      assert '/' !in "HEAD";
    }
    forall k | 0 <= k < |Split(n)| ensures ValidRefComponent(Split(n)[k]) {
      if k < |Split(base)| {
        assert Split(n)[k] == Split(base)[k];
      } else {
        assert Split(n)[k] == leaf;
      }
    }
  }

  /** A plain name of one valid component, not ending in `.`, that is
      neither `@` nor `HEAD` and does not start with `-`. */
  lemma ValidSingleBranch(b: string)
    requires '/' !in b && ValidRefComponent(b) && b[0] != '-' && b[|b| - 1] != '.'
    requires b != "@" && b != "HEAD"
    ensures ValidBranchName(b)
  {
    SplitNoSlash(b);
  }

  /** Creating ref `b` clashes with an existing ref that is a `/`-namespace of
      it, or that it is a namespace of (git stores refs as files and directories). */
  predicate RefConflict(branches: set<string>, b: string) {
    exists e :: e in branches && (e + "/" <= b || b + "/" <= e)
  }

  /** The worktree registered at directory `d`, if any. */
  function WorktreeAt(ws: seq<Worktree>, d: Path): (w: Option<Worktree>)
    ensures w.Some? ==> w.value in ws && w.value.path == d
    ensures w.None? ==> forall i :: 0 <= i < |ws| ==> ws[i].path != d
  {
    if |ws| == 0 then None
    else if ws[0].path == d then Some(ws[0])
    else WorktreeAt(ws[1..], d)
  }

  /** A worktree appended at a directory no earlier worktree uses is the one found there. */
  lemma {:induction false} WorktreeAtAppend(ws: seq<Worktree>, w: Worktree)
    requires WorktreeAt(ws, w.path).None?
    ensures WorktreeAt(ws + [w], w.path) == Some(w)
  {
    if |ws| > 0 {
      assert (ws + [w])[1..] == ws[1..] + [w];
      WorktreeAtAppend(ws[1..], w);
    } else {
      assert ws + [w] == [w];
    }
  }

  /** Why `worktree add <p> [--orphan] -b <b>` stops before doing anything:
      no repository, an invalid or existing branch, an existing path or one
      beneath a file, a registered worktree path, or (for a non-orphan
      branch, whose ref is written at once) a ref clash. */
  predicate AddRefused(r: Repo, p: Path, o: bool, b: string) {
    || !r.isRepo || !ValidBranchName(b) || b in r.branches || p in r.dirs
    || !(Ancestry(p) !! r.files) || WorktreeAt(r.worktrees, p).Some?
    || (!o && RefConflict(r.branches, b))
  }

  /** `--format=<format>`, or its unique abbreviation `--form=` or
      `--forma=`: the one option of `git branch` whose value may be any text.
      `git branch` takes such an argument as the output format, and lists
      every branch in that format. */
  predicate FormatOption(arg: string) {
    "--form=" <= arg || "--forma=" <= arg || "--format=" <= arg
  }

  /** A listing pattern that git's option parser takes for options it then
      refuses. The pattern starts with `-` and ends in `*`, and `*` is neither
      an option letter nor part of an option name. Every other option of
      `git branch` either takes no value, takes a value `x*` cannot be, or
      cannot be combined with `--list`. So the only way through is a format
      option. */
  predicate ListingRefused(arg: string) {
    |arg| > 0 && arg[0] == '-' && !FormatOption(arg)
  }

  /** Appending the `*` of a listing pattern changes nothing about whether
      git refuses it: every option prefix that matters ends in `=`. */
  lemma ListingRefusedStar(base: string)
    ensures ListingRefused(base + "*") <==> ListingRefused(base)
    ensures FormatOption(base + "*") <==> FormatOption(base)
  {
    var t := base + "*";
    assert forall o: string :: |o| > 0 && o[|o| - 1] == '=' ==> (o <= t <==> o <= base) by {
      forall o: string | |o| > 0 && o[|o| - 1] == '=' ensures o <= t <==> o <= base {
        if o <= base {
          assert t[..|o|] == base[..|o|];
        }
      }
    }
    assert "--form="[6] == '=' && "--forma="[7] == '=' && "--format="[8] == '=';
    if |base| > 0 {
      assert t[0] == base[0];
    }
  }

  /** The effect of one git invocation; a failing one yields its argument
      vector. An orphan branch is born at its first commit, which is where a
      ref clash shows. */
  function Exec(r: Repo, c: Command): Result<Repo, seq<string>> {
    match c
    case InitRepo => Success(r.(isRepo := true))
    case ListBranches(p) =>
      if r.isRepo && !ListingRefused(p) then Success(r) else Failure(Argv(c))
    case SetConfig(k, v) =>
      if r.isRepo then Success(r.(config := r.config[k := v])) else Failure(Argv(c))
    case AddWorktree(p, o, b) =>
      if AddRefused(r, p, o, b) then Failure(Argv(c))
      else
        Success(r.(
          branches := if o then r.branches else r.branches + {b},
          dirs := r.dirs + Ancestry(p),
          worktrees := r.worktrees + [Worktree(p, b)]))
    case Commit(d, _) =>
      match WorktreeAt(r.worktrees, d)
      case None => Failure(Argv(c))
      case Some(w) =>
        if w.branch in r.branches then Success(r)
        else if RefConflict(r.branches, w.branch) then Failure(Argv(c))
        else Success(r.(branches := r.branches + {w.branch}))
  }

  /** The state after running a command sequence, and the argument vector of
      the command that failed, if one did; nothing is rolled back. */
  datatype Run = Run(state: Repo, failed: Option<seq<string>>)

  function RunAll(r: Repo, cmds: seq<Command>): Run
    decreases |cmds|
  {
    if |cmds| == 0 then Run(r, None)
    else match Exec(r, cmds[0])
      case Failure(argv) => Run(r, Some(argv))
      case Success(r') => RunAll(r', cmds[1..])
  }

  /** Whitespace-separated tokens of `git branch --list <prefix>*`: every
      branch starting with `prefix`, plus the `*` that marks the current
      branch and the `+` that marks a branch checked out in a linked worktree. */
  function ListingTokens(r: Repo, prefix: string): (tokens: set<string>)
    ensures forall b :: b in r.branches && prefix <= b ==> b in tokens
  {
    var listed := set b | b in r.branches && prefix <= b;
    listed
    + (if r.current.Some? && r.current.value in listed then {"*"} else {})
    + (if exists i :: 0 <= i < |r.worktrees| && r.worktrees[i].branch in listed then {"+"} else {})
  }

  /** Apart from the two marker tokens, the listing holds exactly the branches
      that start with the prefix. */
  lemma ListingTokensExact(r: Repo, prefix: string, t: string)
    requires t != "*" && t != "+"
    ensures t in ListingTokens(r, prefix) <==> t in r.branches && prefix <= t
  {
  }

  /** The effect of one step never removes a branch, a directory, a worktree
      or a config key, and never changes the current branch or the files. */
  predicate Grows(r: Repo, r': Repo) {
    && r'.isRepo == r.isRepo
    && r.branches <= r'.branches
    && r.dirs <= r'.dirs
    && r'.files == r.files
    && r'.current == r.current
    && r.config.Keys <= r'.config.Keys
    && r.worktrees <= r'.worktrees
  }

  lemma ExecGrows(r: Repo, c: Command)
    requires r.isRepo && Exec(r, c).Success?
    ensures Grows(r, Exec(r, c).value)
  {
  }

  /** Running commands in sequence equals running the prefix, then the rest
      from where the prefix stopped. */
  lemma {:induction false} RunAllAppend(r: Repo, a: seq<Command>, b: seq<Command>)
    ensures RunAll(r, a + b) ==
      (var x := RunAll(r, a); if x.failed.Some? then x else RunAll(x.state, b))
    decreases |a|
  {
    if |a| > 0 {
      assert (a + b)[0] == a[0];
      assert (a + b)[1..] == a[1..] + b;
      match Exec(r, a[0])
      case Failure(_) =>
      case Success(r') => RunAllAppend(r', a[1..], b);
    } else {
      assert a + b == b;
    }
  }

  /** A run of worktree and commit commands leaves the config as it was. */
  predicate NoConfigWrites(cmds: seq<Command>) {
    forall i :: 0 <= i < |cmds| ==> !cmds[i].SetConfig? && !cmds[i].InitRepo?
  }

  lemma {:induction false} RunAllGrows(r: Repo, cmds: seq<Command>)
    requires r.isRepo
    ensures Grows(r, RunAll(r, cmds).state)
    ensures NoConfigWrites(cmds) ==> RunAll(r, cmds).state.config == r.config
    decreases |cmds|
  {
    if |cmds| > 0 {
      match Exec(r, cmds[0])
      case Failure(_) =>
      case Success(r') =>
        ExecGrows(r, cmds[0]);
        RunAllGrows(r', cmds[1..]);
        if NoConfigWrites(cmds) {
          assert NoConfigWrites(cmds[1..]) by {
            forall i | 0 <= i < |cmds[1..]| ensures !cmds[1..][i].SetConfig? && !cmds[1..][i].InitRepo? {
              assert cmds[1..][i] == cmds[i + 1];
            }
          }
        }
    }
  }

  /** Config writes on a repository always succeed and record their values in order. */
  lemma ConfigWrites(r: Repo, k1: string, v1: string, k2: string, v2: string)
    requires r.isRepo
    ensures RunAll(r, [SetConfig(k1, v1), SetConfig(k2, v2)])
      == Run(r.(config := r.config[k1 := v1][k2 := v2]), None)
  {
    var r1 := r.(config := r.config[k1 := v1]);
    assert [SetConfig(k1, v1), SetConfig(k2, v2)][1..] == [SetConfig(k2, v2)];
    assert RunAll(r1, [SetConfig(k2, v2)]) == RunAll(r1.(config := r1.config[k2 := v2]), []);
  }
}

=== FILE: init_properties.dfy ===
/** What `init` guarantees: when it refuses, what a completed run leaves
    behind, what a half-finished one leaves behind, and that a fresh
    repository is provisioned completely. */
module InitProperties {
  import opened Wrappers
  import opened Paths
  import opened Constants
  import opened Git
  import opened Worktrees
  import opened KeyServer

  /** The listing is filtered by the base-branch prefix, and the three names
      checked all carry that prefix, so the filter loses nothing: apart from
      the marker tokens, `init` refuses exactly when the base branch or one
      of its two keys branches already exists. */
  lemma CollisionIff(repo: Repo, base: string)
    requires base != "*" && base != "+"
    ensures Collides(ListingTokens(repo, base), base)
        <==> base in repo.branches || TestBranch(base) in repo.branches || FinalBranch(base) in repo.branches
  {
    KeyBranchesDistinct(base);
    ListingTokensExact(repo, base, base);
    assert |TestBranch(base)| > 1 && |FinalBranch(base)| > 1;
    ListingTokensExact(repo, base, TestBranch(base));
    ListingTokensExact(repo, base, FinalBranch(base));
  }

  /** `git branch --list` marks a branch checked out in another worktree with
      a `+` token, so a base branch named `+` is refused as soon as any such
      branch starting with `+` is listed, although no `+`, `+/test` or
      `+/final` branch exists. */
  lemma PlusMarkerCollides(repo: Repo, i: nat)
    requires i < |repo.worktrees|
    requires repo.worktrees[i].branch in repo.branches && "+" <= repo.worktrees[i].branch
    ensures Collides(ListingTokens(repo, "+"), "+")
  {
  }

  /** The steps after the collision check never report a collision. */
  lemma ProvisionNeverCollides(s: Server, base: string, ksDir: Path, r: Repo, pick: nat -> nat)
    ensures var o := Provision(s, base, ksDir, r, pick);
      o.Failed? ==> o.error.GitFailed? || o.error.PathExists? || o.error.NotADirectory?
  {
  }

  /** With the default base branch, the listing cannot contain the other
      internal branches, so they never cause a collision. */
  lemma DefaultListingSkipsInternal(repo: Repo)
    ensures RepoConfBranch !in ListingTokens(repo, GitKsKeysBaseBranch)
    ensures KeyserverBranchName !in ListingTokens(repo, GitKsKeysBaseBranch)
  {
    InternalBranchesOutsideKeysNamespace();
    ListingTokensExact(repo, GitKsKeysBaseBranch, RepoConfBranch);
    ListingTokensExact(repo, GitKsKeysBaseBranch, KeyserverBranchName);
  }

  /** `init` raises the collision error exactly when git lists the branches
      and the listing collides, and then has done nothing but `git init`. */
  lemma InitCollision(s: Server, base: string, ksDir: Path, repo: Repo, pick: nat -> nat)
    ensures var o := Init(s, base, ksDir, repo, pick);
      (o.Failed? && o.error.AlreadyExists?)
        <==> !ListingRefused(base) && Collides(ListingTokens(repo.(isRepo := true), base), base)
    ensures !ListingRefused(base) && Collides(ListingTokens(repo.(isRepo := true), base), base) ==>
      Init(s, base, ksDir, repo, pick)
        == Failed(repo.(isRepo := true), AlreadyExists(CollisionMessage(base), ErrStateAlreadyExists))
  {
    ListingRefusedStar(base);
    ProvisionNeverCollides(s, base, ksDir, repo.(isRepo := true), pick);
  }

  /** A base branch starting with `-`, other than a format option, makes the
      pattern `<base>*` read as options git refuses. `git branch --list`
      exits with an error, and `init` stops right after `git init`, before
      the identity is written. */
  lemma OptionLikeBaseFailsAtListing(s: Server, base: string, ksDir: Path, repo: Repo, pick: nat -> nat)
    requires ListingRefused(base)
    ensures Init(s, base, ksDir, repo, pick)
      == Failed(repo.(isRepo := true), GitFailed(["branch", "--list", base + "*"]))
  {
    ListingRefusedStar(base);
  }

  /** A base branch starting with a format option is listed: git prints the
      format once per branch. Without a collision, `init` writes the
      identity, then fails at the first `worktree add`, because a keys branch
      starting with `-` is a name git refuses. */
  lemma FormatBaseFailsAtWorktree(s: Server, base: string, ksDir: Path, repo: Repo, pick: nat -> nat)
    requires FormatOption(base)
    requires !Collides(ListingTokens(repo.(isRepo := true), base), base)
    ensures var inited := repo.(isRepo := true);
      var tb := TestBranch(base);
      Init(s, base, ksDir, repo, pick)
        == Failed(inited.(config := WithIdentity(inited.config, s)),
                  GitFailed(Argv(AddWorktree(BranchDir(KeysPlan(s, base, pick).staging, tb), true, tb))))
  {
    var inited := repo.(isRepo := true);
    var tb := TestBranch(base);
    var plan := KeysPlan(s, base, pick);
    var add := AddWorktree(BranchDir(plan.staging, tb), true, tb);
    var rest := plan.commands + [SetConfig(GitKsBranchConfigKey, base)];
    InitProvisions(s, base, ksDir, repo, pick);
    assert plan.commands == PlanCommands(plan.staging, [tb, FinalBranch(base)], true);
    assert rest[0] == add;
    assert tb[0] == '-';
    assert !ValidBranchName(tb);
    var named := inited.(config := WithIdentity(inited.config, s));
    IdentityRun(inited, s);
    assert ProvisionCommands(s, base, pick) == IdentityCommands(s) + rest;
    RunAllAppend(inited, IdentityCommands(s), rest);
    assert Exec(named, add).Failure?;
  }

  /** A listable base without a collision goes straight on to provisioning
      the repository `git init` left. */
  lemma InitProvisions(s: Server, base: string, ksDir: Path, repo: Repo, pick: nat -> nat)
    requires !ListingRefused(base) && !Collides(ListingTokens(repo.(isRepo := true), base), base)
    ensures Init(s, base, ksDir, repo, pick) == Provision(s, base, ksDir, repo.(isRepo := true), pick)
  {
    ListingRefusedStar(base);
  }

  /** When the git steps of provisioning all succeed, the identity and the base
      branch are registered, both keys branches exist under valid names with
      their worktrees registered in order and on disk, and nothing was lost. */
  lemma ProvisionDone(s: Server, base: string, r: Repo, pick: nat -> nat)
    requires r.isRepo
    requires RunAll(r, ProvisionCommands(s, base, pick)).failed.None?
    ensures var t := RunAll(r, ProvisionCommands(s, base, pick)).state;
      var staging := KeysPlan(s, base, pick).staging;
      && t.config == WithIdentity(r.config, s)[GitKsBranchConfigKey := base]
      && t.worktrees == r.worktrees + WorktreesFor(staging, [TestBranch(base), FinalBranch(base)])
      && TestBranch(base) in t.branches && FinalBranch(base) in t.branches
      && BranchDir(staging, TestBranch(base)) in t.dirs
      && BranchDir(staging, FinalBranch(base)) in t.dirs
      && ValidBranchName(TestBranch(base)) && ValidBranchName(FinalBranch(base))
      && Grows(r, t)
  {
    var plan := KeysPlan(s, base, pick);
    var ident := IdentityCommands(s);
    var last := [SetConfig(GitKsBranchConfigKey, base)];
    var branches := [TestBranch(base), FinalBranch(base)];
    assert plan.commands == PlanCommands(plan.staging, branches, true) by {
      assert [TestBranch(base)] + [FinalBranch(base)] == branches;
    }
    RunAllAppend(r, ident + plan.commands, last);
    RunAllAppend(r, ident, plan.commands);
    IdentityRun(r, s);
    var ri := r.(config := WithIdentity(r.config, s));
    var planned := RunAll(ri, plan.commands);
    assert planned.failed.None?;
    PlanComplete(ri, plan.staging, branches, true);
    PlanGrows(ri, plan.staging, branches, true);
    var rp := planned.state;
    assert RunAll(rp, last) == RunAll(rp.(config := rp.config[GitKsBranchConfigKey := base]), []);
    assert branches[0] == TestBranch(base) && branches[1] == FinalBranch(base);
  }

  /** Creating the keys directories succeeds only when neither existed and no
      file stood in their way; then both exist, with their ancestors, and the
      directory and keyserver are registered. */
  lemma MakeKeysDirsDone(r: Repo, root: Path, ksDir: Path)
    requires r.isRepo
    requires MakeKeysDirs(r, root, ksDir).Done?
    ensures var testDir := KeysDir(root, ksDir, TestStr);
      var finalDir := KeysDir(root, ksDir, FinalStr);
      && testDir !in r.dirs && finalDir !in r.dirs
      && Ancestry(testDir) !! r.files && Ancestry(finalDir) !! r.files
      && MakeKeysDirs(r, root, ksDir).state
         == r.(dirs := r.dirs + Ancestry(testDir) + Ancestry(finalDir),
               config := r.config[GitKsDirConfigKey := Render(ksDir)][KeyserverConfigKey := GitKsStr])
  {
    var testDir := KeysDir(root, ksDir, TestStr);
    var finalDir := KeysDir(root, ksDir, FinalStr);
    var both := r.(dirs := r.dirs + Ancestry(testDir) + Ancestry(finalDir));
    assert Mkdir(r, testDir).Success?;
    assert Mkdir(r.(dirs := r.dirs + Ancestry(testDir)), finalDir) == Success(both);
    ConfigWrites(both, GitKsDirConfigKey, Render(ksDir), KeyserverConfigKey, GitKsStr);
    assert finalDir !in r.dirs;
  }

  /** A refused `mkdir` names one of the two keys directories, which either
      exists or lies beneath a file, and leaves everything but the
      directories as the git steps left it. */
  lemma MakeKeysDirsFailed(r: Repo, root: Path, ksDir: Path)
    requires MakeKeysDirs(r, root, ksDir).Failed?
    ensures var o := MakeKeysDirs(r, root, ksDir);
      && (o.error.PathExists? || o.error.NotADirectory?)
      && (o.error.path == KeysDir(root, ksDir, TestStr) || o.error.path == KeysDir(root, ksDir, FinalStr))
      && (o.error.PathExists? ==> o.error.path in o.state.dirs || o.error.path in o.state.files)
      && (o.error.NotADirectory? ==> !(Ancestry(o.error.path) !! o.state.files))
      && o.state == r.(dirs := o.state.dirs)
      && r.dirs <= o.state.dirs
  {
  }

  /** A completed `init`: the collision check passed, and the git steps and
      both `mkdir`s succeeded on the repository `git init` left. */
  lemma InitDoneSteps(s: Server, base: string, ksDir: Path, repo: Repo, pick: nat -> nat)
    requires Init(s, base, ksDir, repo, pick).Done?
    ensures var inited := repo.(isRepo := true);
      var run := RunAll(inited, ProvisionCommands(s, base, pick));
      && !Collides(ListingTokens(inited, base), base)
      && run.failed.None?
      && Init(s, base, ksDir, repo, pick) == MakeKeysDirs(run.state, s.rootDir, ksDir)
  {
  }

  /** The config a completed `init` leaves, in terms of the one it found. */
  function DoneConfig(before: map<string, string>, s: Server, base: string, ksDir: Path): map<string, string> {
    WithIdentity(before, s)[GitKsBranchConfigKey := base][GitKsDirConfigKey := Render(ksDir)][KeyserverConfigKey := GitKsStr]
  }

  /** After a completed `init` the config holds the base branch, the keys
      directory as given and `gitks` as keyserver, the identity exactly when
      supplied, and every other key as it was. */
  lemma InitDoneConfig(s: Server, base: string, ksDir: Path, repo: Repo, pick: nat -> nat)
    requires Init(s, base, ksDir, repo, pick).Done?
    ensures var c := Init(s, base, ksDir, repo, pick).state.config;
      && GitKsBranchConfigKey in c && c[GitKsBranchConfigKey] == base
      && GitKsDirConfigKey in c && c[GitKsDirConfigKey] == Render(ksDir)
      && KeyserverConfigKey in c && c[KeyserverConfigKey] == "gitks"
      && (Supplied(s.userName) ==> "user.name" in c && c["user.name"] == s.userName.value)
      && (Supplied(s.userEmail) ==> "user.email" in c && c["user.email"] == s.userEmail.value)
      && (!Supplied(s.userName) ==>
            ("user.name" in c <==> "user.name" in repo.config)
            && ("user.name" in repo.config ==> c["user.name"] == repo.config["user.name"]))
      && (!Supplied(s.userEmail) ==>
            ("user.email" in c <==> "user.email" in repo.config)
            && ("user.email" in repo.config ==> c["user.email"] == repo.config["user.email"]))
      && (forall k :: k !in InitConfigKeys ==>
            (k in c <==> k in repo.config) && (k in repo.config ==> c[k] == repo.config[k]))
  {
    InitDoneConfigIs(s, base, ksDir, repo, pick);
    DoneConfigMeaning(repo.config, s, base, ksDir);
  }

  lemma InitDoneConfigIs(s: Server, base: string, ksDir: Path, repo: Repo, pick: nat -> nat)
    requires Init(s, base, ksDir, repo, pick).Done?
    ensures Init(s, base, ksDir, repo, pick).state.config == DoneConfig(repo.config, s, base, ksDir)
  {
    var inited := repo.(isRepo := true);
    InitDoneSteps(s, base, ksDir, repo, pick);
    ProvisionDone(s, base, inited, pick);
    var run := RunAll(inited, ProvisionCommands(s, base, pick));
    MakeKeysDirsDone(run.state, s.rootDir, ksDir);
  }

  lemma DoneConfigMeaning(before: map<string, string>, s: Server, base: string, ksDir: Path)
    ensures var c := DoneConfig(before, s, base, ksDir);
      && GitKsBranchConfigKey in c && c[GitKsBranchConfigKey] == base
      && GitKsDirConfigKey in c && c[GitKsDirConfigKey] == Render(ksDir)
      && KeyserverConfigKey in c && c[KeyserverConfigKey] == "gitks"
      && (Supplied(s.userName) ==> "user.name" in c && c["user.name"] == s.userName.value)
      && (Supplied(s.userEmail) ==> "user.email" in c && c["user.email"] == s.userEmail.value)
      && (!Supplied(s.userName) ==>
            ("user.name" in c <==> "user.name" in before)
            && ("user.name" in before ==> c["user.name"] == before["user.name"]))
      && (!Supplied(s.userEmail) ==>
            ("user.email" in c <==> "user.email" in before)
            && ("user.email" in before ==> c["user.email"] == before["user.email"]))
      && (forall k :: k !in InitConfigKeys ==>
            (k in c <==> k in before) && (k in before ==> c[k] == before[k]))
  {
    ConfigKeysDistinct();
    ConfigKeysNotIdentity();
  }

  /** Every config key `init` may write. */
  const InitConfigKeys: set<string> :=
    {"user.name", "user.email", GitKsBranchConfigKey, GitKsDirConfigKey, KeyserverConfigKey}

  lemma ConfigKeysNotIdentity()
    ensures "user.name" != GitKsBranchConfigKey && "user.name" != GitKsDirConfigKey
    ensures "user.name" != KeyserverConfigKey
    ensures "user.email" != GitKsBranchConfigKey && "user.email" != GitKsDirConfigKey
    ensures "user.email" != KeyserverConfigKey
  {
    assert GitKsBranchConfigKey[0] == 'g' && GitKsDirConfigKey[0] == 'g' && KeyserverConfigKey[0] == 'e';
  }

  /** After a completed `init` both keys branches exist under valid names,
      their worktrees are registered after the existing ones, test first, the
      keys directories exist and neither they nor a file in their way did
      before, and nothing that existed is gone. */
  lemma InitDoneRepo(s: Server, base: string, ksDir: Path, repo: Repo, pick: nat -> nat)
    requires Init(s, base, ksDir, repo, pick).Done?
    ensures var t := Init(s, base, ksDir, repo, pick).state;
      var staging := KeysPlan(s, base, pick).staging;
      && t.isRepo && t.current == repo.current && t.files == repo.files
      && repo.branches <= t.branches && repo.dirs <= t.dirs
      && TestBranch(base) in t.branches && FinalBranch(base) in t.branches
      && ValidBranchName(TestBranch(base)) && ValidBranchName(FinalBranch(base))
      && t.worktrees == repo.worktrees + WorktreesFor(staging, [TestBranch(base), FinalBranch(base)])
      && BranchDir(staging, TestBranch(base)) in t.dirs
      && BranchDir(staging, FinalBranch(base)) in t.dirs
      && KeysDir(s.rootDir, ksDir, TestStr) in t.dirs && KeysDir(s.rootDir, ksDir, TestStr) !in repo.dirs
      && KeysDir(s.rootDir, ksDir, FinalStr) in t.dirs && KeysDir(s.rootDir, ksDir, FinalStr) !in repo.dirs
      && Ancestry(KeysDir(s.rootDir, ksDir, TestStr)) !! repo.files
      && Ancestry(KeysDir(s.rootDir, ksDir, FinalStr)) !! repo.files
  {
    var inited := repo.(isRepo := true);
    InitDoneSteps(s, base, ksDir, repo, pick);
    ProvisionDone(s, base, inited, pick);
    var run := RunAll(inited, ProvisionCommands(s, base, pick));
    MakeKeysDirsDone(run.state, s.rootDir, ksDir);
    var testDir := KeysDir(s.rootDir, ksDir, TestStr);
    var finalDir := KeysDir(s.rootDir, ksDir, FinalStr);
    assert testDir in Ancestry(testDir) by { AncestryIsWithin(testDir, testDir); }
    assert finalDir in Ancestry(finalDir) by { AncestryIsWithin(finalDir, finalDir); }
  }

  /** `mkdir` without `exist_ok`: when either keys directory already exists,
      or a file stands at it or at one of its ancestors, `init` does not
      complete. */
  lemma ExistingKeysDirRefused(s: Server, base: string, ksDir: Path, repo: Repo, pick: nat -> nat)
    requires || KeysDir(s.rootDir, ksDir, TestStr) in repo.dirs
             || KeysDir(s.rootDir, ksDir, FinalStr) in repo.dirs
             || !(Ancestry(KeysDir(s.rootDir, ksDir, TestStr)) !! repo.files)
             || !(Ancestry(KeysDir(s.rootDir, ksDir, FinalStr)) !! repo.files)
    ensures Init(s, base, ksDir, repo, pick).Failed?
  {
    if Init(s, base, ksDir, repo, pick).Done? {
      InitDoneRepo(s, base, ksDir, repo, pick);
    }
  }

  /** An existing test keys directory is refused only after every git step
      has run: `init` fails with `FileExistsError` on that directory, leaving
      the keys branches, their worktrees and the base-branch registration. */
  lemma ExistingTestDirFailsAtMkdir(s: Server, base: string, ksDir: Path, repo: Repo, pick: nat -> nat)
    requires !ListingRefused(base) && !Collides(ListingTokens(repo.(isRepo := true), base), base)
    requires RunAll(repo.(isRepo := true), ProvisionCommands(s, base, pick)).failed.None?
    requires KeysDir(s.rootDir, ksDir, TestStr) in repo.dirs
    ensures Init(s, base, ksDir, repo, pick)
      == Failed(RunAll(repo.(isRepo := true), ProvisionCommands(s, base, pick)).state,
                PathExists(KeysDir(s.rootDir, ksDir, TestStr)))
  {
    ListingRefusedStar(base);
    RunAllGrows(repo.(isRepo := true), ProvisionCommands(s, base, pick));
  }

  /** An existing final keys directory, with the test one creatable, is
      refused after the test directory was made: `init` fails with
      `FileExistsError` on the final directory. */
  lemma ExistingFinalDirFailsAtMkdir(s: Server, base: string, ksDir: Path, repo: Repo, pick: nat -> nat)
    requires !ListingRefused(base) && !Collides(ListingTokens(repo.(isRepo := true), base), base)
    requires RunAll(repo.(isRepo := true), ProvisionCommands(s, base, pick)).failed.None?
    requires KeysDir(s.rootDir, ksDir, TestStr) !in RunAll(repo.(isRepo := true), ProvisionCommands(s, base, pick)).state.dirs
    requires Ancestry(KeysDir(s.rootDir, ksDir, TestStr)) !! repo.files
    requires KeysDir(s.rootDir, ksDir, FinalStr) in repo.dirs
    ensures var t := RunAll(repo.(isRepo := true), ProvisionCommands(s, base, pick)).state;
      Init(s, base, ksDir, repo, pick)
        == Failed(t.(dirs := t.dirs + Ancestry(KeysDir(s.rootDir, ksDir, TestStr))),
                  PathExists(KeysDir(s.rootDir, ksDir, FinalStr)))
  {
    ListingRefusedStar(base);
    RunAllGrows(repo.(isRepo := true), ProvisionCommands(s, base, pick));
  }

  /** A linked worktree or submodule checkout has a file, not a directory, at
      `<root>/<git dir>`: the default keys directory lies beneath it, so
      `init` does not complete. */
  lemma GitFileRefused(s: Server, base: string, gitDir: string, repo: Repo, pick: nat -> nat)
    requires IsSegment(gitDir)
    requires Join(s.rootDir, Path(false, [gitDir])) in repo.files
    ensures Init(s, base, GitKsDir(Path(false, [gitDir])), repo, pick).Failed?
  {
    var ksDir := GitKsDir(Path(false, [gitDir]));
    GitKsDirShape(gitDir);
    var kt := KeysDir(s.rootDir, ksDir, TestStr);
    var g := Join(s.rootDir, Path(false, [gitDir]));
    assert kt.segments == s.rootDir.segments + [gitDir, ".gpg-home", ".gitks"] + [TestStr];
    assert kt.segments[..|g.segments|] == g.segments;
    AncestryIsWithin(kt, g);
    ExistingKeysDirRefused(s, base, ksDir, repo, pick);
  }

  /** Keys branch names git refuses stop `init` before it completes. */
  lemma InvalidKeyBranchRefused(s: Server, base: string, ksDir: Path, repo: Repo, pick: nat -> nat)
    requires !ValidBranchName(TestBranch(base)) || !ValidBranchName(FinalBranch(base))
    ensures Init(s, base, ksDir, repo, pick).Failed?
  {
    if Init(s, base, ksDir, repo, pick).Done? {
      InitDoneRepo(s, base, ksDir, repo, pick);
    }
  }

  /** The empty base branch gives the keys branch `/test`, whose first
      component is empty, so `init` fails. */
  lemma EmptyBaseRefused(s: Server, ksDir: Path, repo: Repo, pick: nat -> nat)
    ensures Init(s, "", ksDir, repo, pick).Failed?
  {
    SplitAppend("", TestStr);
    assert Split(TestBranch(""))[0] == "";
    InvalidKeyBranchRefused(s, "", ksDir, repo, pick);
  }

  /** A valid base branch gives valid keys branches. */
  lemma KeyBranchesValid(base: string)
    requires ValidBranchName(base)
    ensures ValidBranchName(TestBranch(base)) && ValidBranchName(FinalBranch(base))
  {
    assert ValidRefComponent(TestStr) && ValidRefComponent(FinalStr);
    assert '/' !in TestStr && '/' !in FinalStr;
    ValidBranchAppend(base, TestStr);
    ValidBranchAppend(base, FinalStr);
  }

  /** The default base branch and its keys branches are names git accepts. */
  lemma DefaultKeyBranchesValid()
    ensures ValidBranchName(GitKsKeysBaseBranch)
    ensures ValidBranchName(TestBranch(GitKsKeysBaseBranch))
    ensures ValidBranchName(FinalBranch(GitKsKeysBaseBranch))
  {
    DefaultRootValid();
    assert ValidRefComponent(GitKsKeysStr) && '/' !in GitKsKeysStr;
    ValidSingleBranch(GitKsBranchRoot);
    ValidBranchAppend(GitKsBranchRoot, GitKsKeysStr);
    KeyBranchesValid(GitKsKeysBaseBranch);
  }

  /** The first component of the default base branch is a branch name by itself. */
  lemma DefaultRootValid()
    ensures ValidRefComponent(GitKsBranchRoot) && '/' !in GitKsBranchRoot
    ensures GitKsBranchRoot[0] != '-' && GitKsBranchRoot[|GitKsBranchRoot| - 1] != '.'
    ensures GitKsBranchRoot != "@" && GitKsBranchRoot != "HEAD"
  {
    var root := GitKsBranchRoot;
    assert root == "__gitks_internal";
    assert forall i :: 0 <= i < |root| ==> root[i] == '_' || 'a' <= root[i] <= 'z';
    WordComponentValid(root);
  }

  /** A non-empty run of lower-case letters and underscores is a ref component
      that neither starts with `-` nor ends with `.`. */
  lemma WordComponentValid(c: string)
    requires |c| > 0
    requires forall i :: 0 <= i < |c| ==> c[i] == '_' || 'a' <= c[i] <= 'z'
    ensures ValidRefComponent(c) && '/' !in c
    ensures c[0] != '-' && c[|c| - 1] != '.' && c != "@" && c != "HEAD"
  {
    if |c| >= 5 {
      assert c[|c| - 5..][0] == c[|c| - 5];
    }
    assert c != "HEAD" by { if |c| == 4 { assert c[0] != "HEAD"[0]; } }
  }

  /** A refused keys directory: the git steps had all run, so the keys
      branches, their worktrees and the base-branch registration stay behind,
      while the keys directory and keyserver are not registered. */
  lemma InitMkdirRefused(s: Server, base: string, ksDir: Path, repo: Repo, pick: nat -> nat)
    requires Init(s, base, ksDir, repo, pick).Failed?
    requires Init(s, base, ksDir, repo, pick).error.PathExists? || Init(s, base, ksDir, repo, pick).error.NotADirectory?
    ensures var o := Init(s, base, ksDir, repo, pick);
      var staging := KeysPlan(s, base, pick).staging;
      && (o.error.path == KeysDir(s.rootDir, ksDir, TestStr) || o.error.path == KeysDir(s.rootDir, ksDir, FinalStr))
      && (o.error.PathExists? ==> o.error.path in o.state.dirs || o.error.path in o.state.files)
      && (o.error.NotADirectory? ==> !(Ancestry(o.error.path) !! o.state.files))
      && o.state.config == WithIdentity(repo.config, s)[GitKsBranchConfigKey := base]
      && TestBranch(base) in o.state.branches && FinalBranch(base) in o.state.branches
      && o.state.worktrees == repo.worktrees + WorktreesFor(staging, [TestBranch(base), FinalBranch(base)])
  {
    var inited := repo.(isRepo := true);
    InitCollision(s, base, ksDir, repo, pick);
    var run := RunAll(inited, ProvisionCommands(s, base, pick));
    assert run.failed.None?;
    ProvisionDone(s, base, inited, pick);
    MakeKeysDirsFailed(run.state, s.rootDir, ksDir);
  }

  /** The worktrees of the two keys branches are distinct siblings. */
  lemma KeysWorktreesApart(staging: Path, base: string)
    ensures var t := BranchDir(staging, TestBranch(base));
      var f := BranchDir(staging, FinalBranch(base));
      t != f && f !in Ancestry(t)
  {
    assert IsSegment(TestStr) && IsSegment(FinalStr);
    ParseChild(base, TestStr);
    ParseChild(base, FinalStr);
    var q := Path(base == "" || base[0] == '/', Parse(base).segments);
    var p := Join(staging, q);
    assert BranchDir(staging, TestBranch(base)) == Path(p.absolute, p.segments + [TestStr]);
    assert BranchDir(staging, FinalBranch(base)) == Path(p.absolute, p.segments + [FinalStr]);
    assert (p.segments + [TestStr])[|p.segments|] != (p.segments + [FinalStr])[|p.segments|];
    SiblingNotAncestor(p, TestStr, FinalStr);
  }

  /** The two keys directories are distinct siblings. */
  lemma KeysDirsApart(root: Path, ksDir: Path)
    ensures KeysDir(root, ksDir, FinalStr) !in Ancestry(KeysDir(root, ksDir, TestStr))
  {
    SiblingNotAncestor(Join(root, ksDir), TestStr, FinalStr);
  }

  /** On a repository without branches or worktrees, with valid keys branch
      names and nothing in the way of their worktrees, the keys plan runs
      through: both keys branches are born, in order, each with its worktree. */
  lemma FreshPlanRuns(r: Repo, staging: Path, base: string)
    requires r.isRepo && r.branches == {} && r.worktrees == []
    requires ValidBranchName(TestBranch(base)) && ValidBranchName(FinalBranch(base))
    requires BranchDir(staging, TestBranch(base)) !in r.dirs
    requires BranchDir(staging, FinalBranch(base)) !in r.dirs
    requires Ancestry(BranchDir(staging, TestBranch(base))) !! r.files
    requires Ancestry(BranchDir(staging, FinalBranch(base))) !! r.files
    ensures var t := TestBranch(base);
      var f := FinalBranch(base);
      var tw := BranchDir(staging, t);
      var fw := BranchDir(staging, f);
      RunAll(r, PlanCommands(staging, [t, f], true))
        == Run(r.(branches := {t, f},
                  dirs := r.dirs + Ancestry(tw) + Ancestry(fw),
                  worktrees := [Worktree(tw, t), Worktree(fw, f)]), None)
  {
    var t := TestBranch(base);
    var f := FinalBranch(base);
    var tw := BranchDir(staging, t);
    var fw := BranchDir(staging, f);
    KeyBranchesDistinct(base);
    KeyBranchesNotNested(base);
    KeysWorktreesApart(staging, base);
    PlanStep(r, staging, [t, f], true);
    OrphanStepSucceeds(r, staging, t);
    var r2 := r.(branches := {t}, dirs := r.dirs + Ancestry(tw), worktrees := [Worktree(tw, t)]);
    assert {} + {t} == {t};
    assert [] + [Worktree(tw, t)] == [Worktree(tw, t)];
    assert [t, f][1..] == [f];
    PlanStep(r2, staging, [f], true);
    assert !RefConflict(r2.branches, f);
    OrphanStepSucceeds(r2, staging, f);
    assert [f][1..] == [];
    assert {t} + {f} == {t, f};
  }

  /** On a repository without branches or worktrees, with valid keys branch
      names and nothing in the way of their worktrees, the git steps of
      provisioning all succeed, adding only the two worktrees' directories. */
  lemma FreshProvisionRuns(s: Server, base: string, r: Repo, pick: nat -> nat)
    requires r.isRepo && r.branches == {} && r.worktrees == []
    requires ValidBranchName(TestBranch(base)) && ValidBranchName(FinalBranch(base))
    requires var staging := KeysPlan(s, base, pick).staging;
      && BranchDir(staging, TestBranch(base)) !in r.dirs
      && BranchDir(staging, FinalBranch(base)) !in r.dirs
      && Ancestry(BranchDir(staging, TestBranch(base))) !! r.files
      && Ancestry(BranchDir(staging, FinalBranch(base))) !! r.files
    ensures var staging := KeysPlan(s, base, pick).staging;
      var run := RunAll(r, ProvisionCommands(s, base, pick));
      && run.failed.None?
      && run.state.files == r.files
      && run.state.dirs
         == r.dirs + Ancestry(BranchDir(staging, TestBranch(base))) + Ancestry(BranchDir(staging, FinalBranch(base)))
  {
    var plan := KeysPlan(s, base, pick);
    var t := TestBranch(base);
    var f := FinalBranch(base);
    var tw := BranchDir(plan.staging, t);
    var fw := BranchDir(plan.staging, f);
    var ident := IdentityCommands(s);
    var last := [SetConfig(GitKsBranchConfigKey, base)];
    assert plan.commands == PlanCommands(plan.staging, [t, f], true) by {
      assert [t] + [f] == [t, f];
    }
    RunAllAppend(r, ident + plan.commands, last);
    RunAllAppend(r, ident, plan.commands);
    IdentityRun(r, s);
    var ri := r.(config := WithIdentity(r.config, s));
    FreshPlanRuns(ri, plan.staging, base);
    var r3 := ri.(branches := {t, f}, dirs := ri.dirs + Ancestry(tw) + Ancestry(fw),
                  worktrees := [Worktree(tw, t), Worktree(fw, f)]);
    assert RunAll(r3, last) == RunAll(r3.(config := r3.config[GitKsBranchConfigKey := base]), []);
  }

  /** A fresh repository: with no branches or worktrees yet, valid keys
      branch names, and none of the worktree or keys directories, nor a file,
      in the way, `init` runs to completion. */
  lemma FreshInitCompletes(s: Server, base: string, ksDir: Path, repo: Repo, pick: nat -> nat)
    requires repo.branches == {} && repo.worktrees == []
    requires ValidBranchName(TestBranch(base)) && ValidBranchName(FinalBranch(base))
    requires var staging := KeysPlan(s, base, pick).staging;
      && BranchDir(staging, TestBranch(base)) !in repo.dirs
      && BranchDir(staging, FinalBranch(base)) !in repo.dirs
      && Ancestry(BranchDir(staging, TestBranch(base))) !! repo.files
      && Ancestry(BranchDir(staging, FinalBranch(base))) !! repo.files
    requires var staging := KeysPlan(s, base, pick).staging;
      forall leaf :: leaf == TestStr || leaf == FinalStr ==>
        && KeysDir(s.rootDir, ksDir, leaf) !in repo.dirs
        && Ancestry(KeysDir(s.rootDir, ksDir, leaf)) !! repo.files
        && !Within(BranchDir(staging, TestBranch(base)), KeysDir(s.rootDir, ksDir, leaf))
        && !Within(BranchDir(staging, FinalBranch(base)), KeysDir(s.rootDir, ksDir, leaf))
    ensures Init(s, base, ksDir, repo, pick).Done?
  {
    var inited := repo.(isRepo := true);
    var staging := KeysPlan(s, base, pick).staging;
    var tw := BranchDir(staging, TestBranch(base));
    var fw := BranchDir(staging, FinalBranch(base));
    var kt := KeysDir(s.rootDir, ksDir, TestStr);
    var kf := KeysDir(s.rootDir, ksDir, FinalStr);
    assert ListingTokens(inited, base) == {};
    if |base| > 0 {
      assert TestBranch(base)[0] == base[0];
    }
    InitProvisions(s, base, ksDir, repo, pick);
    FreshProvisionRuns(s, base, inited, pick);
    var run := RunAll(inited, ProvisionCommands(s, base, pick));
    AncestryIsWithin(tw, kt);
    AncestryIsWithin(fw, kt);
    AncestryIsWithin(tw, kf);
    AncestryIsWithin(fw, kf);
    assert kt !in run.state.dirs && kf !in run.state.dirs;
    assert run.state.files == repo.files;
    MakeKeysDirsSucceeds(run.state, s.rootDir, ksDir);
  }

  /** With neither keys directory present and no file in their way, both
      `mkdir`s succeed. */
  lemma MakeKeysDirsSucceeds(r: Repo, root: Path, ksDir: Path)
    requires KeysDir(root, ksDir, TestStr) !in r.dirs && KeysDir(root, ksDir, FinalStr) !in r.dirs
    requires Ancestry(KeysDir(root, ksDir, TestStr)) !! r.files
    requires Ancestry(KeysDir(root, ksDir, FinalStr)) !! r.files
    ensures MakeKeysDirs(r, root, ksDir).Done?
  {
    var kt := KeysDir(root, ksDir, TestStr);
    var kf := KeysDir(root, ksDir, FinalStr);
    KeysDirsApart(root, ksDir);
    assert Mkdir(r, kt) == Success(r.(dirs := r.dirs + Ancestry(kt)));
    assert kf !in r.dirs + Ancestry(kt);
  }
}

=== FILE: keyserver.dfy ===
/** `WorkTreeGitKeyServerImpl`: the keyserver that keeps its keys in branches
    checked out in worktrees, and its `init` provisioning sequence. */
module KeyServer {
  import opened Wrappers
  import opened Paths
  import opened Constants
  import opened Git
  import opened Worktrees

  /** The exit code `init` raises with on a naming collision. */
  datatype ExitCode = ErrStateAlreadyExists

  /** Why `init` stopped: the collision it detects itself, a git invocation
      that exited non-zero, or a keys directory `mkdir` refused because the
      path exists (`FileExistsError`) or lies beneath a file
      (`NotADirectoryError`). */
  datatype Error =
    | AlreadyExists(message: string, exitCode: ExitCode)
    | GitFailed(argv: seq<string>)
    | PathExists(path: Path)
    | NotADirectory(path: Path)

  /** The repository after `init`: either provisioned, or as far as it got
      before the error (nothing is rolled back). */
  datatype Outcome = Done(state: Repo) | Failed(state: Repo, error: Error)

  /** A constructed keyserver: its repository root, the identity it was given,
      the environment its git runs with, and its worktree generator. */
  datatype Server = Server(
    rootDir: Path,
    userName: Option<string>,
    userEmail: Option<string>,
    gitEnv: map<string, string>,
    generator: Generator)

  /** Python truthiness of an optional string: given and non-empty. */
  predicate Supplied(o: Option<string>) {
    o.Some? && o.value != ""
  }

  const AuthorName: string := "GIT_AUTHOR_NAME"
  const CommitterName: string := "GIT_COMMITTER_NAME"
  const AuthorEmail: string := "GIT_AUTHOR_EMAIL"
  const CommitterEmail: string := "GIT_COMMITTER_EMAIL"

  /** The environment overrides the constructor puts on its git command. */
  function IdentityEnv(userName: Option<string>, userEmail: Option<string>): map<string, string> {
    var named := if Supplied(userName)
      then map[AuthorName := userName.value, CommitterName := userName.value]
      else map[];
    if Supplied(userEmail)
    then named[AuthorEmail := userEmail.value][CommitterEmail := userEmail.value]
    else named
  }

  /** `WorkTreeGitKeyServerImpl(key_validator, repo_root_dir, user_name,
      user_email, worktree_generator)`, with `Path.cwd()` and `Path.home()`
      passed in as `cwd` and `home`. */
  function NewServer(repoRootDir: Option<Path>, userName: Option<string>, userEmail: Option<string>,
                     generator: Option<Generator>, cwd: Path, home: Path): (s: Server)
    ensures repoRootDir.Some? ==> s.rootDir == repoRootDir.value
    ensures repoRootDir.None? ==> s.rootDir == cwd
    ensures s.userName == userName && s.userEmail == userEmail
    ensures generator.Some? ==> s.generator == generator.value
    ensures generator.None? ==> s.generator.baseDir == home && s.generator.randomDirLen == 10
    ensures (AuthorName in s.gitEnv <==> Supplied(userName))
         && (CommitterName in s.gitEnv <==> Supplied(userName))
    ensures (AuthorEmail in s.gitEnv <==> Supplied(userEmail))
         && (CommitterEmail in s.gitEnv <==> Supplied(userEmail))
    ensures Supplied(userName) ==>
      s.gitEnv[AuthorName] == userName.value && s.gitEnv[CommitterName] == userName.value
    ensures Supplied(userEmail) ==>
      s.gitEnv[AuthorEmail] == userEmail.value && s.gitEnv[CommitterEmail] == userEmail.value
    ensures forall k :: k in s.gitEnv ==> k in {AuthorName, CommitterName, AuthorEmail, CommitterEmail}
  {
    Server(
      if repoRootDir.Some? then repoRootDir.value else cwd,
      userName,
      userEmail,
      IdentityEnv(userName, userEmail),
      if generator.Some? then generator.value else DefaultGenerator(home))
  }

  /** The local identity `init` records: `user.name`, then `user.email`,
      each only when supplied. */
  function IdentityCommands(s: Server): seq<Command> {
    (if Supplied(s.userName) then [SetConfig("user.name", s.userName.value)] else [])
    + (if Supplied(s.userEmail) then [SetConfig("user.email", s.userEmail.value)] else [])
  }

  /** The config after the identity writes. */
  function WithIdentity(config: map<string, string>, s: Server): (c: map<string, string>)
    ensures Supplied(s.userName) ==> "user.name" in c && c["user.name"] == s.userName.value
    ensures Supplied(s.userEmail) ==> "user.email" in c && c["user.email"] == s.userEmail.value
    ensures forall k :: k in config ==> k in c
    ensures forall k :: k != "user.name" && k != "user.email" ==>
      (k in c <==> k in config) && (k in config ==> c[k] == config[k])
    ensures !Supplied(s.userName) ==>
      ("user.name" in c <==> "user.name" in config)
      && ("user.name" in config ==> c["user.name"] == config["user.name"])
    ensures !Supplied(s.userEmail) ==>
      ("user.email" in c <==> "user.email" in config)
      && ("user.email" in config ==> c["user.email"] == config["user.email"])
  {
    var named := if Supplied(s.userName) then config["user.name" := s.userName.value] else config;
    if Supplied(s.userEmail) then named["user.email" := s.userEmail.value] else named
  }

  /** The identity writes always succeed on a repository. */
  lemma IdentityRun(r: Repo, s: Server)
    requires r.isRepo
    ensures RunAll(r, IdentityCommands(s)) == Run(r.(config := WithIdentity(r.config, s)), None)
  {
    var nameCmds := if Supplied(s.userName) then [SetConfig("user.name", s.userName.value)] else [];
    var emailCmds := if Supplied(s.userEmail) then [SetConfig("user.email", s.userEmail.value)] else [];
    RunAllAppend(r, nameCmds, emailCmds);
    var r1 := r.(config := if Supplied(s.userName) then r.config["user.name" := s.userName.value] else r.config);
    assert RunAll(r, nameCmds) == Run(r1, None) by {
      if Supplied(s.userName) {
        assert RunAll(r, nameCmds) == RunAll(r1, []);
      }
    }
    if Supplied(s.userEmail) {
      assert RunAll(r1, emailCmds) == RunAll(r1.(config := r1.config["user.email" := s.userEmail.value]), []);
    }
  }

  /** The message of the collision error. */
  function CollisionMessage(base: string): string {
    "Requested keys base branch " + base + " already exists. Rerun with a different branch name."
  }

  /** The collision test against the whitespace tokens of the branch listing. */
  predicate Collides(tokens: set<string>, base: string) {
    base in tokens || TestBranch(base) in tokens || FinalBranch(base) in tokens
  }

  /** The worktrees of the two keys branches, test first. */
  function KeysPlan(s: Server, base: string, pick: nat -> nat): Plan {
    GenerateWorktree(s.generator, s.rootDir, TestBranch(base), [FinalBranch(base)], true, pick)
  }

  /** Everything `init` runs through git between the collision check and the
      directory creation. */
  function ProvisionCommands(s: Server, base: string, pick: nat -> nat): seq<Command> {
    IdentityCommands(s) + KeysPlan(s, base, pick).commands + [SetConfig(GitKsBranchConfigKey, base)]
  }

  /** The registrations `init` writes last: the keys directory, then `gitks`
      as the repository's keyserver. */
  function FinalConfigCommands(ksDir: Path): seq<Command> {
    [SetConfig(GitKsDirConfigKey, Render(ksDir)), SetConfig(KeyserverConfigKey, GitKsStr)]
  }

  /** `Path(root_dir, git_ks_dir, leaf)`. */
  function KeysDir(root: Path, ksDir: Path, leaf: string): Path {
    Join(Join(root, ksDir), Path(false, [leaf]))
  }

  /** `p.mkdir(parents=True)`: refuses an existing path, directory or file,
      and a path beneath a file; otherwise creates it with its missing
      ancestors. */
  function Mkdir(r: Repo, p: Path): (res: Result<Repo, Error>)
    ensures res.Success? <==> p !in r.dirs && Ancestry(p) !! r.files
    ensures res.Failure? ==>
      if p in r.dirs || p in r.files then res.error == PathExists(p) else res.error == NotADirectory(p)
    ensures res.Success? ==> res.value == r.(dirs := res.value.dirs)
    ensures res.Success? ==> forall q :: q in res.value.dirs <==> q in r.dirs || Within(p, q)
  {
    assert p in Ancestry(p) by { AncestryIsWithin(p, p); }
    if p in r.dirs || p in r.files then Failure(PathExists(p))
    else if !(Ancestry(p) !! r.files) then Failure(NotADirectory(p))
    else
      assert forall q :: q in Ancestry(p) <==> Within(p, q) by {
        forall q ensures q in Ancestry(p) <==> Within(p, q) {
          AncestryIsWithin(p, q);
        }
      }
      Success(r.(dirs := r.dirs + Ancestry(p)))
  }

  /** `init(keys_base_branch, git_ks_dir)`, with the random draws of the
      worktree generator passed in as `pick`. `git init` runs first; the
      branch listing is read from the repository it leaves, and a listing
      git refuses stops `init` there. */
  function Init(s: Server, base: string, ksDir: Path, repo: Repo, pick: nat -> nat): Outcome {
    var inited := Exec(repo, InitRepo).value;
    match Exec(inited, ListBranches(base + "*"))
    case Failure(argv) => Failed(inited, GitFailed(argv))
    case Success(listed) =>
      if Collides(ListingTokens(listed, base), base) then
        Failed(inited, AlreadyExists(CollisionMessage(base), ErrStateAlreadyExists))
      else
        Provision(s, base, ksDir, inited, pick)
  }

  /** The steps after the collision check: identity, keys branches and their
      worktrees, the base-branch registration, then the keys directories. */
  function Provision(s: Server, base: string, ksDir: Path, r: Repo, pick: nat -> nat): Outcome {
    var run := RunAll(r, ProvisionCommands(s, base, pick));
    if run.failed.Some? then Failed(run.state, GitFailed(run.failed.value))
    else MakeKeysDirs(run.state, s.rootDir, ksDir)
  }

  /** The `test` and `final` keys directories, then the last two registrations. */
  function MakeKeysDirs(r: Repo, root: Path, ksDir: Path): Outcome {
    match Mkdir(r, KeysDir(root, ksDir, TestStr))
    case Failure(e) => Failed(r, e)
    case Success(made) =>
      match Mkdir(made, KeysDir(root, ksDir, FinalStr))
      case Failure(e) => Failed(made, e)
      // config writes on a repository cannot fail, so the run's state is final
      case Success(both) => Done(RunAll(both, FinalConfigCommands(ksDir)).state)
  }
}

=== FILE: paths.dfy ===
/** POSIX paths as `pathlib` holds them: an anchor flag and the list of
    components, with empty and `.` components dropped on parsing. */
module Paths {

  datatype Path = Path(absolute: bool, segments: seq<string>)

  /** A component `pathlib` keeps after parsing. */
  predicate IsSegment(s: string) {
    |s| > 0 && s != "." && '/' !in s
  }

  /** Every component of `p` is one `pathlib` would keep. */
  predicate Normal(p: Path) {
    forall i :: 0 <= i < |p.segments| ==> IsSegment(p.segments[i])
  }

  /** The pieces of `s` between its `/` separators, empty pieces included. */
  function Split(s: string): (parts: seq<string>)
    ensures |parts| >= 1
    ensures forall i :: 0 <= i < |parts| ==> '/' !in parts[i]
    decreases |s|
  {
    if |s| == 0 then [""]
    else if s[0] == '/' then [""] + Split(s[1..])
    else
      var rest := Split(s[1..]);
      [[s[0]] + rest[0]] + rest[1..]
  }

  /** Drops the empty and `.` pieces, as `pathlib` does. */
  function Clean(parts: seq<string>): (r: seq<string>)
    requires forall i :: 0 <= i < |parts| ==> '/' !in parts[i]
    ensures forall i :: 0 <= i < |r| ==> IsSegment(r[i])
    ensures |r| <= |parts|
  {
    if |parts| == 0 then []
    else if parts[0] == "" || parts[0] == "." then Clean(parts[1..])
    else [parts[0]] + Clean(parts[1..])
  }

  /** `PurePosixPath(s)` for one string argument. */
  function Parse(s: string): (p: Path)
    ensures Normal(p)
    ensures p.absolute <==> |s| > 0 && s[0] == '/'
  {
    Path(|s| > 0 && s[0] == '/', Clean(Split(s)))
  }

  /** `Path(p, q)`: an absolute right operand replaces the left one. */
  function Join(p: Path, q: Path): Path {
    if q.absolute then q else Path(p.absolute, p.segments + q.segments)
  }

  /** The components joined by `/`. */
  function JoinSegments(segs: seq<string>): string {
    if |segs| == 0 then ""
    else if |segs| == 1 then segs[0]
    else segs[0] + "/" + JoinSegments(segs[1..])
  }

  /** `str(p)`: the empty relative path prints as `.`. */
  function Render(p: Path): string {
    if p.absolute then "/" + JoinSegments(p.segments)
    else if |p.segments| == 0 then "."
    else JoinSegments(p.segments)
  }

  /** `p` and all of its ancestors: what `mkdir(parents=True)` leaves existing. */
  function Ancestry(p: Path): set<Path> {
    set k | 0 <= k <= |p.segments| :: Path(p.absolute, p.segments[..k])
  }

  /** `child` is `parent` or lies somewhere beneath it. */
  predicate Within(child: Path, parent: Path) {
    && child.absolute == parent.absolute
    && |parent.segments| <= |child.segments|
    && child.segments[..|parent.segments|] == parent.segments
  }

  lemma AncestryIsWithin(p: Path, q: Path)
    ensures q in Ancestry(p) <==> Within(p, q)
  {
    if Within(p, q) {
      assert q == Path(p.absolute, p.segments[..|q.segments|]);
    }
  }

  /** Appending one plain component to a path string appends it to the
      parsed components. */
  lemma ParseChild(base: string, leaf: string)
    requires IsSegment(leaf)
    ensures Parse(base + "/" + leaf) == Path(base == "" || base[0] == '/', Parse(base).segments + [leaf])
  {
    ParseAppend(base, leaf);
    ParseSingle(leaf);
    assert (base + "/" + leaf)[0] == if base == "" then '/' else base[0];
  }

  /** Two distinct children of one directory: neither lies beneath the other. */
  lemma SiblingNotAncestor(p: Path, a: string, b: string)
    requires a != b
    ensures Path(p.absolute, p.segments + [b]) !in Ancestry(Path(p.absolute, p.segments + [a]))
  {
    var x := Path(p.absolute, p.segments + [a]);
    var y := Path(p.absolute, p.segments + [b]);
    AncestryIsWithin(x, y);
    assert x.segments[|p.segments|] != y.segments[|p.segments|];
  }

  lemma {:induction false} SplitNoSlash(s: string)
    requires '/' !in s
    ensures Split(s) == [s]
    decreases |s|
  {
    if |s| > 0 {
      assert '/' !in s[1..] by {
        forall i | 0 <= i < |s[1..]| ensures s[1..][i] != '/' {
          assert s[1..][i] == s[i + 1];
        }
      }
      SplitNoSlash(s[1..]);
      assert [s[0]] + s[1..] == s;
    }
  }

  /** Splitting distributes over a `/` separator. */
  lemma {:induction false} SplitAppend(a: string, b: string)
    ensures Split(a + "/" + b) == Split(a) + Split(b)
    decreases |a|, 1
  {
    if |a| == 0 {
      assert a + "/" + b == "/" + b;
      assert ("/" + b)[1..] == b;
    } else if a[0] == '/' {
      SplitAppendSlash(a, b);
    } else {
      SplitAppendChar(a, b);
    }
  }

  /** The step of `SplitAppend` for a leading separator. */
  lemma {:induction false} SplitAppendSlash(a: string, b: string)
    requires |a| > 0 && a[0] == '/'
    ensures Split(a + "/" + b) == Split(a) + Split(b)
    decreases |a|, 0
  {
    var s := a + "/" + b;
    assert s[0] == '/';
    assert s[1..] == a[1..] + "/" + b;
    SplitAppend(a[1..], b);
    var ra := Split(a[1..]);
    assert Split(s) == [""] + (ra + Split(b));
    ConcatAssoc([""], ra, Split(b));
  }

  /** The step of `SplitAppend` for a leading ordinary character. */
  lemma {:induction false} SplitAppendChar(a: string, b: string)
    requires |a| > 0 && a[0] != '/'
    ensures Split(a + "/" + b) == Split(a) + Split(b)
    decreases |a|, 0
  {
    var s := a + "/" + b;
    assert s[0] == a[0] && s[1..] == a[1..] + "/" + b;
    SplitAppend(a[1..], b);
    var ra := Split(a[1..]);
    ConsSplit(ra, Split(b));
    var head := [[a[0]] + ra[0]];
    assert Split(s) == head + (ra[1..] + Split(b));
    ConcatAssoc(head, ra[1..], Split(b));
  }

  lemma ConsSplit<T>(x: seq<T>, y: seq<T>)
    requires |x| > 0
    ensures (x + y)[0] == x[0] && (x + y)[1..] == x[1..] + y
  {
  }

  lemma ConcatAssoc<T>(x: seq<T>, y: seq<T>, z: seq<T>)
    ensures x + (y + z) == (x + y) + z
  {
  }

  lemma {:induction false} CleanAppend(x: seq<string>, y: seq<string>)
    requires forall i :: 0 <= i < |x| ==> '/' !in x[i]
    requires forall i :: 0 <= i < |y| ==> '/' !in y[i]
    ensures Clean(x + y) == Clean(x) + Clean(y)
  {
    if |x| > 0 {
      assert (x + y)[0] == x[0];
      assert (x + y)[1..] == x[1..] + y;
      CleanAppend(x[1..], y);
    } else {
      assert x + y == y;
    }
  }

  lemma {:induction false} CleanKeepsSegments(segs: seq<string>)
    requires forall i :: 0 <= i < |segs| ==> IsSegment(segs[i])
    ensures (forall i :: 0 <= i < |segs| ==> '/' !in segs[i]) && Clean(segs) == segs
  {
    if |segs| > 0 {
      CleanKeepsSegments(segs[1..]);
    }
  }

  /** Joining segments and splitting the result again gives them back. */
  lemma {:induction false} SplitJoinSegments(segs: seq<string>)
    requires |segs| >= 1
    requires forall i :: 0 <= i < |segs| ==> '/' !in segs[i]
    ensures Split(JoinSegments(segs)) == segs
  {
    if |segs| == 1 {
      SplitNoSlash(segs[0]);
    } else {
      SplitAppend(segs[0], JoinSegments(segs[1..]));
      SplitNoSlash(segs[0]);
      SplitJoinSegments(segs[1..]);
    }
  }

  lemma {:induction false} JoinSegmentsHead(segs: seq<string>)
    requires |segs| >= 1 && |segs[0]| > 0
    ensures |JoinSegments(segs)| > 0 && JoinSegments(segs)[0] == segs[0][0]
  {
  }

  /** Printing a normal path and parsing the text again is lossless. */
  lemma ParseRender(p: Path)
    requires Normal(p)
    ensures Parse(Render(p)) == p
  {
    var s := Render(p);
    if p.absolute {
      if |p.segments| == 0 {
        assert s == "/";
        assert s[1..] == "";
      } else {
        SplitJoinSegments(p.segments);
        assert s[1..] == JoinSegments(p.segments);
        CleanKeepsSegments(p.segments);
      }
      assert Split(s) == [""] + Split(s[1..]);
    } else if |p.segments| == 0 {
      SplitNoSlash(".");
    } else {
      SplitJoinSegments(p.segments);
      CleanKeepsSegments(p.segments);
      JoinSegmentsHead(p.segments);
    }
  }

  /** `Path(a + "/" + b)` has the components of `a` followed by those of `b`. */
  lemma ParseAppend(a: string, b: string)
    ensures Parse(a + "/" + b).segments == Parse(a).segments + Parse(b).segments
  {
    SplitAppend(a, b);
    CleanAppend(Split(a), Split(b));
  }

  /** A string without `/` parses to at most one component. */
  lemma ParseSingle(s: string)
    requires '/' !in s
    ensures Parse(s) == Path(false, if s == "" || s == "." then [] else [s])
  {
    SplitNoSlash(s);
    if |s| > 0 {
      assert s[0] in s;
    }
  }
}

=== FILE: repo_name.dfy ===
/** Repository identity helpers: the name a URL or path denotes, and the
    guard that decides whether a directory is a git working tree. */
module RepoName {
  import opened Paths

  /** Python's `t in s` for strings. */
  predicate Contains(s: string, t: string)
    decreases |s|
  {
    t <= s || (|s| > 0 && Contains(s[1..], t))
  }

  /** No character of `s` is a space or a control character. */
  predicate NoSpaceOrControl(s: string)
    decreases |s|
  {
    |s| == 0 || (' ' < s[0] && NoSpaceOrControl(s[1..]))
  }

  /** The recursive definition says the same as a statement about every character. */
  lemma {:induction false} NoSpaceOrControlAll(s: string)
    ensures NoSpaceOrControl(s) <==> forall c :: c in s ==> ' ' < c
  {
    if |s| > 0 {
      NoSpaceOrControlAll(s[1..]);
      assert s[0] in s;
      assert forall c :: c in s <==> c == s[0] || c in s[1..];
    }
  }

  /** Python's `s.endswith(suffix)`. */
  predicate EndsWith(s: string, suffix: string) {
    |suffix| <= |s| && s[|s| - |suffix|..] == suffix
  }

  /** Index of the first character of `s` in `stops`, or `|s|` when there is none. */
  function FirstOf(s: string, stops: set<char>): (k: nat)
    ensures k <= |s|
    ensures forall j :: 0 <= j < k ==> s[j] !in stops
    ensures k < |s| ==> s[k] in stops
  {
    if |s| == 0 || s[0] in stops then 0 else 1 + FirstOf(s[1..], stops)
  }

  /** `os.path.basename`: the longest suffix of `s` free of `/`. */
  function Basename(s: string): (name: string)
    ensures '/' !in name
    ensures |name| <= |s| && s[|s| - |name|..] == name
    ensures |name| < |s| ==> s[|s| - |name| - 1] == '/'
  {
    if |s| == 0 || s[|s| - 1] == '/' then ""
    else
      var name := Basename(s[..|s| - 1]) + [s[|s| - 1]];
      assert s[..|s| - 1][|s| - |name|..] + [s[|s| - 1]] == s[|s| - |name|..];
      name
  }

  predicate IsAsciiLetter(c: char) {
    'a' <= c <= 'z' || 'A' <= c <= 'Z'
  }

  /** Characters `urllib.parse` accepts in a URL scheme. */
  predicate IsSchemeChar(c: char) {
    IsAsciiLetter(c) || '0' <= c <= '9' || c == '+' || c == '-' || c == '.'
  }

  /** A scheme `urlsplit` recognises: an ASCII letter, then scheme characters. */
  predicate IsScheme(s: string) {
    |s| > 0 && IsAsciiLetter(s[0]) && forall j :: 0 <= j < |s| ==> IsSchemeChar(s[j])
  }

  /** What is left after `urlsplit` removes a leading `scheme:`; `s` itself
      when the text before the first `:` is not a scheme. */
  function AfterScheme(s: string): string {
    var i := FirstOf(s, {':'});
    if i < |s| && IsScheme(s[..i]) then s[i + 1..] else s
  }

  /** What is left after `urlsplit` removes a leading `//authority`. */
  function AfterAuthority(s: string): string {
    if |s| >= 2 && s[..2] == "//" then
      var t := s[2..];
      t[FirstOf(t, {'/', '?', '#'})..]
    else s
  }

  /** `urlsplit` first strips leading C0 control characters and spaces, as
      the WHATWG URL standard does. */
  function LStrip(s: string): (t: string)
    ensures |t| <= |s| && t == s[|s| - |t|..]
    ensures t == "" || t[0] > ' '
    ensures forall j :: 0 <= j < |s| - |t| ==> s[j] <= ' '
  {
    if |s| > 0 && s[0] <= ' ' then LStrip(s[1..]) else s
  }

  /** Tab, carriage return and line feed, which `urlsplit` deletes wherever
      they occur. */
  predicate IsUnsafeUrlChar(c: char) {
    c == '\t' || c == '\r' || c == '\n'
  }

  /** `s` with every tab, carriage return and line feed removed, the other
      characters kept in order. */
  function DropUnsafe(s: string): (t: string)
    ensures |t| <= |s|
    ensures '\t' !in t && '\r' !in t && '\n' !in t
  {
    if |s| == 0 then ""
    else if IsUnsafeUrlChar(s[0]) then DropUnsafe(s[1..])
    else [s[0]] + DropUnsafe(s[1..])
  }

  /** A network location for which none of `urlsplit`'s `ValueError`s can
      arise. It is ASCII, so the NFKC check of `_checknetloc` returns at
      once. It holds no `[` or `]`, so neither the balance check nor the
      IPv6 or IPvFuture check of a bracketed host applies. */
  predicate PlainNetloc(host: string)
    decreases |host|
  {
    |host| == 0 || (host[0] as int < 0x80 && host[0] != '[' && host[0] != ']' && PlainNetloc(host[1..]))
  }

  /** The recursive definition says the same as a statement about every character. */
  lemma {:induction false} PlainNetlocAll(host: string)
    ensures PlainNetloc(host) <==> forall c :: c in host ==> c as int < 0x80 && c != '[' && c != ']'
  {
    if |host| > 0 {
      PlainNetlocAll(host[1..]);
      assert host[0] in host;
      assert forall c :: c in host <==> c == host[0] || c in host[1..];
    }
  }

  /** The text `urlsplit` actually splits. */
  function Sanitise(s: string): string {
    DropUnsafe(LStrip(s))
  }

  /** `str.lower()` on the ASCII letters; a scheme holds no other letters. */
  function Lower(s: string): string {
    seq(|s|, i requires 0 <= i < |s| => if 'A' <= s[i] <= 'Z' then (s[i] as int + 32) as char else s[i])
  }

  /** The scheme `urlsplit` reports: the text before the first `:`,
      lower-cased, when it is a scheme, and the empty scheme otherwise. */
  function SchemeOf(s: string): string {
    var i := FirstOf(s, {':'});
    if i < |s| && IsScheme(s[..i]) then Lower(s[..i]) else ""
  }

  /** `uses_params`: the schemes whose path `urlparse` splits at `;`. */
  predicate UsesParams(scheme: string) {
    scheme in {"", "ftp", "hdl", "prospero", "http", "imap", "https", "shttp",
               "rtsp", "rtsps", "rtspu", "sip", "sips", "mms", "sftp", "tel"}
  }

  /** The path `_splitparams` keeps: cut at the first `;` of the last segment,
      and whole when that segment has none. */
  function CutParams(path: string): (cut: string)
    ensures cut <= path
    ensures forall c :: c in cut ==> c in path
  {
    var b := Basename(path);
    assert path == path[..|path| - |b|] + b;
    path[..|path| - |b|] + b[..FirstOf(b, {';'})]
  }

  /** `urlparse(s).path`: the path component of section 3 of RFC 3986, which
      ends at the first `?` (query) or `#` (fragment), taken from the
      sanitised text, less any `;params` for a scheme in `uses_params`. */
  function UrlPath(s: string): (path: string)
    ensures '?' !in path && '#' !in path
  {
    var t := Sanitise(s);
    var rest := AfterAuthority(AfterScheme(t));
    var whole := BeforeQuery(rest);
    if UsesParams(SchemeOf(t)) then CutParams(whole) else whole
  }

  /** The text before the first `?` or `#`. */
  function BeforeQuery(s: string): (whole: string)
    ensures whole <= s && '?' !in whole && '#' !in whole
  {
    s[..FirstOf(s, {'?', '#'})]
  }

  /** `name[:-4]` when `name` ends with `.git`, else `name`. */
  function StripGitSuffix(name: string): (stripped: string)
    ensures stripped <= name
  {
    if EndsWith(name, ".git") then name[..|name| - 4] else name
  }

  /** `extract_repo_name`: the last path segment, less one trailing `.git`. */
  function ExtractRepoName(repoUrl: string): (name: string)
    ensures '/' !in name
  {
    var path := if Contains(repoUrl, "://") then UrlPath(repoUrl) else repoUrl;
    StripGitSuffix(Basename(path))
  }

  /** The `/`-free basename of a path ending in `/w` is `w`. */
  lemma BasenameAfterSlash(dir: string, w: string)
    requires '/' !in w
    ensures Basename(dir + "/" + w) == w
  {
    var s := dir + "/" + w;
    assert s[|s| - |w|..] == w;
    assert s[|s| - |w| - 1] == '/';
  }

  /** A string without `/` is its own basename. */
  lemma BasenameNoSlash(w: string)
    requires '/' !in w
    ensures Basename(w) == w
  {
  }

  /** Text without a `:` is never taken for a URL. */
  lemma {:induction false} NoColonNoSeparator(s: string)
    requires ':' !in s
    ensures !Contains(s, "://")
    decreases |s|
  {
    if |s| > 0 {
      assert s[0] != ':';
      assert ':' !in s[1..] by {
        forall i | 0 <= i < |s[1..]| ensures s[1..][i] != ':' {
          assert s[1..][i] == s[i + 1];
        }
      }
      NoColonNoSeparator(s[1..]);
    }
  }

  /** An scp-like `host:path` whose path does not start with `/` is not taken
      for a URL. */
  lemma {:induction false} ScpNoSeparator(host: string, path: string)
    requires ':' !in host && ':' !in path
    requires path == "" || path[0] != '/'
    ensures !Contains(host + ":" + path, "://")
    decreases |host|
  {
    var s := host + ":" + path;
    if |host| == 0 {
      assert s == ":" + path && s[1..] == path;
      NoColonNoSeparator(path);
    } else {
      assert s[0] == host[0] && s[0] != ':';
      assert s[1..] == host[1..] + ":" + path;
      assert ':' !in host[1..] by {
        forall i | 0 <= i < |host[1..]| ensures host[1..][i] != ':' {
          assert host[1..][i] == host[i + 1];
        }
      }
      ScpNoSeparator(host[1..], path);
    }
  }

  /** Strips exactly one `.git` from a basename `w + ".git"`, even when `w`
      itself ends with `.git`. */
  lemma StripOneGitSuffix(w: string)
    ensures EndsWith(w + ".git", ".git")
    ensures (w + ".git")[..|w + ".git"| - 4] == w
  {
    assert (w + ".git")[|w + ".git"| - 4..] == ".git";
  }

  /** A local path or scp-like address ending in `/w.git` names `w`. */
  lemma ExtractFromPathWithGitSuffix(url: string, dir: string, w: string)
    requires url == dir + "/" + w + ".git"
    requires '/' !in w && !Contains(url, "://")
    ensures ExtractRepoName(url) == w
  {
    assert dir + "/" + w + ".git" == dir + "/" + (w + ".git");
    assert '/' !in w + ".git";
    BasenameAfterSlash(dir, w + ".git");
    StripOneGitSuffix(w);
  }

  /** A local path or scp-like address ending in `/w`, `w` without a `.git`
      suffix, names `w`. */
  lemma ExtractFromPath(url: string, dir: string, w: string)
    requires url == dir + "/" + w
    requires '/' !in w && !EndsWith(w, ".git") && !Contains(url, "://")
    ensures ExtractRepoName(url) == w
  {
    BasenameAfterSlash(dir, w);
  }

  /** A string with no `/`, no `://` and no `.git` suffix is returned unchanged. */
  lemma ExtractPlainName(w: string)
    requires '/' !in w && !EndsWith(w, ".git") && !Contains(w, "://")
    ensures ExtractRepoName(w) == w
  {
    BasenameNoSlash(w);
  }

  /** The first stop in `a + b` is where `b` starts, when `a` has none and `b`
      is empty or starts with one. */
  lemma FirstOfAfter(a: string, b: string, stops: set<char>)
    requires forall j :: 0 <= j < |a| ==> a[j] !in stops
    requires b == "" || b[0] in stops
    ensures FirstOf(a + b, stops) == |a|
  {
    var s := a + b;
    assert forall j :: 0 <= j < |a| ==> s[j] == a[j];
    if |b| > 0 {
      assert s[|a|] == b[0];
    }
  }

  /** `DropUnsafe` keeps exactly the characters other than tab, carriage
      return and line feed. */
  lemma {:induction false} DropUnsafeKeeps(s: string)
    ensures forall c :: c in DropUnsafe(s) <==> c in s && !IsUnsafeUrlChar(c)
    decreases |s|
  {
    if |s| > 0 {
      DropUnsafeKeeps(s[1..]);
      assert s == [s[0]] + s[1..];
    }
  }

  /** Text with no tab, carriage return or line feed passes `DropUnsafe` unchanged. */
  lemma {:induction false} DropUnsafeClean(s: string)
    requires '\t' !in s && '\r' !in s && '\n' !in s
    ensures DropUnsafe(s) == s
    decreases |s|
  {
    if |s| > 0 {
      assert s == [s[0]] + s[1..];
      assert forall c :: c in s[1..] ==> c in s;
      DropUnsafeClean(s[1..]);
    }
  }

  /** `DropUnsafe` works character by character, so it distributes over
      concatenation. */
  lemma {:induction false} DropUnsafeAppend(a: string, b: string)
    ensures DropUnsafe(a + b) == DropUnsafe(a) + DropUnsafe(b)
    decreases |a|
  {
    if |a| == 0 {
      assert a + b == b;
    } else {
      assert (a + b)[0] == a[0];
      assert (a + b)[1..] == a[1..] + b;
      DropUnsafeAppend(a[1..], b);
    }
  }

  /** Text that starts with neither a control character nor a space, and
      holds no tab, carriage return or line feed, is split as it stands. */
  lemma SanitiseClean(s: string)
    requires s == "" || s[0] > ' '
    requires '\t' !in s && '\r' !in s && '\n' !in s
    ensures Sanitise(s) == s
  {
    DropUnsafeClean(s);
  }

  /** Sanitised text is clean: sanitising it again changes nothing. */
  lemma SanitiseIdempotent(s: string)
    ensures Sanitise(Sanitise(s)) == Sanitise(s)
  {
    var t := LStrip(s);
    var u := DropUnsafe(t);
    if t != "" {
      assert !IsUnsafeUrlChar(t[0]);
      assert u == [t[0]] + DropUnsafe(t[1..]);
    }
    assert LStrip(u) == u;
    DropUnsafeClean(u);
  }

  /** `urlsplit` removes exactly the leading `scheme:` and reports it in
      lower case. */
  lemma AfterSchemeOf(scheme: string, rest: string)
    requires IsScheme(scheme)
    ensures AfterScheme(scheme + ":" + rest) == rest
    ensures SchemeOf(scheme + ":" + rest) == Lower(scheme)
  {
    var s := scheme + ":" + rest;
    FirstOfAfter(scheme, ":" + rest, {':'});
    assert s == scheme + (":" + rest);
    assert s[..|scheme|] == scheme;
    assert s[|scheme| + 1..] == rest;
  }

  /** `urlsplit` removes exactly the leading `//host`. */
  lemma AfterAuthorityOf(host: string, rest: string)
    requires '/' !in host && '?' !in host && '#' !in host
    requires rest == "" || rest[0] in {'/', '?', '#'}
    ensures AfterAuthority("//" + host + rest) == rest
  {
    var s := "//" + host + rest;
    assert s[..2] == "//";
    assert s[2..] == host + rest;
    FirstOfAfter(host, rest, {'/', '?', '#'});
  }

  /** `urlparse` keeps exactly the path of a URL that sanitises to
      `scheme://host<path><tail>`: the scheme, the authority and any query or
      fragment are dropped, and so are the `;params` of the last segment
      when the scheme is in `uses_params`. */
  lemma UrlPathOf(url: string, scheme: string, host: string, path: string, tail: string)
    requires Sanitise(url) == scheme + "://" + host + path + tail
    requires IsScheme(scheme)
    requires '/' !in host && '?' !in host && '#' !in host
    requires PlainNetloc(host)
    requires path == "" || path[0] == '/'
    requires '?' !in path && '#' !in path
    requires tail == "" || tail[0] == '?' || tail[0] == '#'
    ensures UrlPath(url) == if UsesParams(Lower(scheme)) then CutParams(path) else path
  {
    PathOfText(Sanitise(url), scheme, host, path, tail);
  }

  /** `_splitparams` on `dir/leaf`, `leaf` free of `/`, cuts `leaf` at its
      first `;`. */
  lemma CutParamsAfterSlash(dir: string, leaf: string)
    requires '/' !in leaf
    ensures CutParams(dir + "/" + leaf) == dir + "/" + leaf[..FirstOf(leaf, {';'})]
  {
    var path := dir + "/" + leaf;
    BasenameAfterSlash(dir, leaf);
    assert path[..|path| - |leaf|] == dir + "/";
  }

  /** The first `;` of `w.git` is the first `;` of `w`, and there is none
      when `w` has none; so the name left after the cut and the suffix strip
      is `w`, or what precedes the first `;` of `w`, less any `.git`. */
  lemma CutGitLeaf(w: string)
    ensures var leaf := w + ".git";
      StripGitSuffix(leaf[..FirstOf(leaf, {';'})])
        == if ';' in w then StripGitSuffix(w[..FirstOf(w, {';'})]) else w
  {
    var leaf := w + ".git";
    var k := FirstOf(leaf, {';'});
    if ';' in w {
      var j := FirstOf(w, {';'});
      assert j < |w|;
      assert leaf[j] == w[j];
      assert k == j;
      assert leaf[..k] == w[..j];
    } else {
      assert forall i :: 0 <= i < |leaf| ==> leaf[i] != ';' by {
        forall i | 0 <= i < |leaf| ensures leaf[i] != ';' {
          if i < |w| { assert leaf[i] == w[i]; } else { assert leaf[i] == ".git"[i - |w|]; }
        }
      }
      assert k == |leaf|;
      assert leaf[..k] == leaf;
      StripOneGitSuffix(w);
    }
  }

  lemma PathOfText(s: string, scheme: string, host: string, path: string, tail: string)
    requires s == scheme + "://" + host + path + tail
    requires IsScheme(scheme)
    requires '/' !in host && '?' !in host && '#' !in host
    requires path == "" || path[0] == '/'
    requires '?' !in path && '#' !in path
    requires tail == "" || tail[0] == '?' || tail[0] == '#'
    ensures var rest := AfterAuthority(AfterScheme(s)); rest[..FirstOf(rest, {'?', '#'})] == path
    ensures SchemeOf(s) == Lower(scheme)
  {
    var rest := path + tail;
    assert rest == "" || rest[0] in {'/', '?', '#'};
    assert s == scheme + ":" + ("//" + host + rest);
    AfterSchemeOf(scheme, "//" + host + rest);
    AfterAuthorityOf(host, rest);
    FirstOfAfter(path, tail, {'?', '#'});
    assert rest[..|path|] == path;
  }

  /** A URL (its text holds `://`) that sanitises to one whose path ends in
      `/w.git`, followed by any query or fragment, names `w`; for a scheme in
      `uses_params` and a `w` holding `;`, it names what precedes that `;`,
      less any `.git`. */
  lemma ExtractFromUrl(url: string, scheme: string, host: string, dir: string, w: string, tail: string)
    requires Contains(url, "://")
    requires Sanitise(url) == scheme + "://" + host + dir + "/" + w + ".git" + tail
    requires IsScheme(scheme)
    requires '/' !in host && '?' !in host && '#' !in host
    requires PlainNetloc(host)
    requires dir == "" || dir[0] == '/'
    requires '?' !in dir && '#' !in dir
    requires '/' !in w && '?' !in w && '#' !in w
    requires tail == "" || tail[0] == '?' || tail[0] == '#'
    ensures ExtractRepoName(url)
      == if UsesParams(Lower(scheme)) && ';' in w then StripGitSuffix(w[..FirstOf(w, {';'})]) else w
  {
    var leaf := w + ".git";
    var path := dir + "/" + leaf;
    UrlRegroup(Sanitise(url), scheme, host, dir, w, tail);
    GitPathChars(dir, w);
    UrlPathOf(url, scheme, host, path, tail);
    CutGitLeaf(w);
    if UsesParams(Lower(scheme)) {
      var k := FirstOf(leaf, {';'});
      CutParamsAfterSlash(dir, leaf);
      assert '/' !in leaf[..k];
      BasenameAfterSlash(dir, leaf[..k]);
    } else {
      BasenameAfterSlash(dir, leaf);
      StripOneGitSuffix(w);
    }
  }

  /** A URL without spaces or control characters whose path ends in
      `/w.git`, followed by any query or fragment, names `w`, with the same
      `;params` cut as ExtractFromUrl. */
  lemma ExtractFromCleanUrl(url: string, scheme: string, host: string, dir: string, w: string, tail: string)
    requires url == scheme + "://" + host + dir + "/" + w + ".git" + tail
    requires NoSpaceOrControl(url)
    requires IsScheme(scheme)
    requires '/' !in host && '?' !in host && '#' !in host
    requires PlainNetloc(host)
    requires dir == "" || dir[0] == '/'
    requires '?' !in dir && '#' !in dir
    requires '/' !in w && '?' !in w && '#' !in w
    requires tail == "" || tail[0] == '?' || tail[0] == '#'
    ensures ExtractRepoName(url)
      == if UsesParams(Lower(scheme)) && ';' in w then StripGitSuffix(w[..FirstOf(w, {';'})]) else w
  {
    CleanUrlText(url, scheme, host, dir, w, tail);
    ExtractFromUrl(url, scheme, host, dir, w, tail);
  }

  lemma CleanUrlText(url: string, scheme: string, host: string, dir: string, w: string, tail: string)
    requires url == scheme + "://" + host + dir + "/" + w + ".git" + tail
    requires NoSpaceOrControl(url)
    requires IsScheme(scheme)
    ensures Contains(url, "://") && Sanitise(url) == url
  {
    var rest := "://" + host + dir + "/" + w + ".git" + tail;
    assert url == scheme + rest;
    assert url[|scheme|..] == rest;
    CleanUrl(url, scheme, rest);
  }

  /** A `scheme://…` without spaces or control characters holds the separator
      and sanitises to itself. */
  lemma CleanUrl(url: string, scheme: string, rest: string)
    requires IsScheme(scheme) && scheme <= url && rest == url[|scheme|..] && "://" <= rest
    requires NoSpaceOrControl(url)
    ensures Contains(url, "://") && Sanitise(url) == url
  {
    NoSpaceOrControlAll(url);
    ContainsFrom(url, |scheme|, "://");
    assert url[0] == scheme[0];
    SanitiseClean(url);
  }

  lemma UrlRegroup(url: string, scheme: string, host: string, dir: string, w: string, tail: string)
    requires url == scheme + "://" + host + dir + "/" + w + ".git" + tail
    ensures url == scheme + "://" + host + (dir + "/" + (w + ".git")) + tail
    ensures url == scheme + ("://" + (host + (dir + "/" + (w + ".git")) + tail))
  {
  }

  /** `dir/w.git` starts with `/` and holds no `?` or `#` when its parts hold none. */
  lemma GitPathChars(dir: string, w: string)
    requires dir == "" || dir[0] == '/'
    requires '?' !in dir && '#' !in dir
    requires '/' !in w && '?' !in w && '#' !in w
    ensures var path := dir + "/" + (w + ".git");
      path[0] == '/' && '?' !in path && '#' !in path && '/' !in w + ".git"
  {
    var path := dir + "/" + (w + ".git");
    assert forall c :: c in path ==> c in dir || c == '/' || c in w || c in ".git";
  }

  lemma {:induction false} ContainsFrom(s: string, i: nat, t: string)
    requires i <= |s| && t <= s[i..]
    ensures Contains(s, t)
    decreases i
  {
    if i > 0 {
      assert s[1..][i - 1..] == s[i..];
      ContainsFrom(s[1..], i - 1, t);
    }
  }

  /** Only the last `.git` is stripped: `dir/w.git.git` names `w.git`. */
  lemma StripsOnlyOneGitSuffix(url: string, dir: string, w: string)
    requires url == dir + "/" + w + ".git.git"
    requires '/' !in w && !Contains(url, "://")
    ensures ExtractRepoName(url) == w + ".git"
  {
    assert url == dir + "/" + (w + ".git") + ".git";
    assert '/' !in w + ".git";
    ExtractFromPathWithGitSuffix(url, dir, w + ".git");
  }

  // The documented examples. Each takes the example text as a parameter so
  // that the verifier reasons from the lemmas above instead of unfolding the
  // functions on a literal; its helpers take the literal apart.

  /** Documented example: an HTTPS URL. */
  lemma ExampleHttpsUrl(url: string)
    requires url == "https://github.com/user/my-repo.git"
    ensures ExtractRepoName(url) == "my-repo"
  {
    var scheme, host, dir, w := "https", "github.com", "/user", "my-repo";
    HttpsExampleText(url, scheme, host, dir, w);
    HttpsExamplePieces(url, scheme, host, dir, w);
    PlainNetlocAll(host);
    NoSpaceOrControlAll(url);
    ExtractFromCleanUrl(url, scheme, host, dir, w, "");
  }

  lemma HttpsExampleText(url: string, scheme: string, host: string, dir: string, w: string)
    requires url == "https://github.com/user/my-repo.git"
    requires scheme == "https" && host == "github.com" && dir == "/user" && w == "my-repo"
    ensures url == scheme + "://" + host + dir + "/" + w + ".git" + ""
  {
  }

  lemma HttpsExamplePieces(url: string, scheme: string, host: string, dir: string, w: string)
    requires url == "https://github.com/user/my-repo.git"
    requires scheme == "https" && host == "github.com" && dir == "/user" && w == "my-repo"
    ensures forall c :: c in url ==> ' ' < c
    ensures IsScheme(scheme)
    ensures '/' !in host && '?' !in host && '#' !in host
    ensures forall c :: c in host ==> c as int < 0x80 && c != '[' && c != ']'
    ensures dir[0] == '/' && '?' !in dir && '#' !in dir
    ensures '/' !in w && '?' !in w && '#' !in w && ';' !in w
  {
  }

  /** Documented example: an scp-like SSH address. */
  lemma ExampleScpAddress(url: string)
    requires url == "git@github.com:user/my-repo.git"
    ensures ExtractRepoName(url) == "my-repo"
  {
    var host, path := "git@github.com", "user/my-repo.git";
    var dir, w := "git@github.com:user", "my-repo";
    ScpExampleFacts(url, host, path, dir, w);
    ScpNoSeparator(host, path);
    ExtractFromPathWithGitSuffix(url, dir, w);
  }

  lemma ScpExampleFacts(url: string, host: string, path: string, dir: string, w: string)
    requires url == "git@github.com:user/my-repo.git"
    requires host == "git@github.com" && path == "user/my-repo.git"
    requires dir == "git@github.com:user" && w == "my-repo"
    ensures url == host + ":" + path
    ensures ':' !in host && ':' !in path && path[0] != '/'
    ensures url == dir + "/" + w + ".git" && '/' !in w
  {
  }

  /** Documented example: an absolute local path. */
  lemma ExampleLocalPath(url: string)
    requires url == "/home/user/code/my-local-repo"
    ensures ExtractRepoName(url) == "my-local-repo"
  {
    var dir, w := "/home/user/code", "my-local-repo";
    LocalExampleFacts(url, dir, w);
    NoColonNoSeparator(url);
    ExtractFromPath(url, dir, w);
  }

  lemma LocalExampleFacts(url: string, dir: string, w: string)
    requires url == "/home/user/code/my-local-repo" && dir == "/home/user/code" && w == "my-local-repo"
    ensures url == dir + "/" + w && '/' !in w
    ensures ':' !in url && !EndsWith(w, ".git")
  {
    assert w[|w| - 4] != '.';
  }

  /** Documented example: a relative local path. */
  lemma ExampleRelativePath(url: string)
    requires url == "../relative/path/to/repo.git"
    ensures ExtractRepoName(url) == "repo"
  {
    var dir, w := "../relative/path/to", "repo";
    RelativeExampleFacts(url, dir, w);
    NoColonNoSeparator(url);
    ExtractFromPathWithGitSuffix(url, dir, w);
  }

  lemma RelativeExampleFacts(url: string, dir: string, w: string)
    requires url == "../relative/path/to/repo.git" && dir == "../relative/path/to" && w == "repo"
    ensures url == dir + "/" + w + ".git" && '/' !in w
    ensures ':' !in url
  {
  }

  /** Documented example: a URL carrying a query string. */
  lemma ExampleUrlWithQuery(url: string)
    requires url == "https://myserver.com/repo.git?token=abc123"
    ensures ExtractRepoName(url) == "repo"
  {
    var scheme, host, w, query := "https", "myserver.com", "repo", "?token=abc123";
    QueryExampleText(url, scheme, host, w, query);
    QueryExamplePieces(url, scheme, host, w, query);
    PlainNetlocAll(host);
    NoSpaceOrControlAll(url);
    ExtractFromCleanUrl(url, scheme, host, "", w, query);
  }

  lemma QueryExampleText(url: string, scheme: string, host: string, w: string, query: string)
    requires url == "https://myserver.com/repo.git?token=abc123"
    requires scheme == "https" && host == "myserver.com" && w == "repo" && query == "?token=abc123"
    ensures url == scheme + "://" + host + "" + "/" + w + ".git" + query
  {
  }

  lemma QueryExamplePieces(url: string, scheme: string, host: string, w: string, query: string)
    requires url == "https://myserver.com/repo.git?token=abc123"
    requires scheme == "https" && host == "myserver.com" && w == "repo" && query == "?token=abc123"
    ensures IsScheme(scheme)
    ensures '/' !in host && '?' !in host && '#' !in host
    ensures forall c :: c in host ==> c as int < 0x80 && c != '[' && c != ']'
    ensures '/' !in w && '?' !in w && '#' !in w && ';' !in w && query[0] == '?'
    ensures forall c :: c in url ==> ' ' < c
  {
  }

  /** A `;params` part of the last path segment is cut off for the schemes
      that take parameters, such as `https` ... */
  lemma ExampleUrlWithParams(url: string)
    requires url == "https://h/a;b.git"
    ensures ExtractRepoName(url) == "a"
  {
    var scheme, w := "https", "a;b";
    ParamsExampleText(url, scheme, w);
    ParamsExamplePieces(url, scheme, w);
    NoSpaceOrControlAll(url);
    ExtractFromCleanUrl(url, scheme, "h", "", w, "");
  }

  /** ... and kept for the others, such as `ssh`. */
  lemma ExampleSshUrlKeepsParams(url: string)
    requires url == "ssh://h/a;b.git"
    ensures ExtractRepoName(url) == "a;b"
  {
    var scheme, w := "ssh", "a;b";
    ParamsExampleText(url, scheme, w);
    ParamsExamplePieces(url, scheme, w);
    NoSpaceOrControlAll(url);
    ExtractFromCleanUrl(url, scheme, "h", "", w, "");
  }

  lemma ParamsExampleText(url: string, scheme: string, w: string)
    requires url == scheme + "://h/a;b.git" && w == "a;b"
    ensures url == scheme + "://" + "h" + "" + "/" + w + ".git" + ""
  {
  }

  lemma ParamsExamplePieces(url: string, scheme: string, w: string)
    requires scheme == "https" || scheme == "ssh"
    requires url == scheme + "://h/a;b.git" && w == "a;b"
    ensures forall c :: c in url ==> ' ' < c
    ensures IsScheme(scheme) && Lower(scheme) == scheme
    ensures '/' !in "h" && '?' !in "h" && '#' !in "h" && PlainNetloc("h")
    ensures '/' !in w && '?' !in w && '#' !in w
    ensures ';' in w && w[..FirstOf(w, {';'})] == "a" && StripGitSuffix("a") == "a"
    ensures UsesParams(scheme) <==> scheme == "https"
  {
    assert w[1] == ';';
  }

  /** A tab between two texts free of tabs, carriage returns and line feeds
      is deleted, when the text does not start with a space or control
      character. */
  lemma SanitiseDropsTab(head: string, tail: string)
    requires head != "" && head[0] > ' '
    requires '\t' !in head && '\r' !in head && '\n' !in head
    requires '\t' !in tail && '\r' !in tail && '\n' !in tail
    ensures Sanitise(head + "\t" + tail) == head + tail
  {
    var s := head + "\t" + tail;
    assert s[0] == head[0];
    assert LStrip(s) == s;
    DropUnsafeAppend(head + "\t", tail);
    DropUnsafeAppend(head, "\t");
    assert DropUnsafe("\t") == DropUnsafe("");
    DropUnsafeClean(head);
    DropUnsafeClean(tail);
  }

  /** A tab inside a URL is deleted before the URL is split, so it never
      reaches the name. */
  lemma ExampleUrlWithTab(url: string)
    requires url == "https://h/re\tpo.git"
    ensures ExtractRepoName(url) == "repo"
  {
    var head, tail := "https://h/re", "po.git";
    TabExampleText(url, head, tail);
    TabExamplePieces(head, tail);
    SanitiseDropsTab(head, tail);
    ContainsFrom(url, 5, "://");
    ExtractFromUrl(url, "https", "h", "", "repo", "");
  }

  lemma TabExampleText(url: string, head: string, tail: string)
    requires url == "https://h/re\tpo.git" && head == "https://h/re" && tail == "po.git"
    ensures url == head + "\t" + tail
    ensures "://" <= url[5..]
  {
  }

  lemma TabExamplePieces(head: string, tail: string)
    requires head == "https://h/re" && tail == "po.git"
    ensures head[0] > ' '
    ensures '\t' !in head && '\r' !in head && '\n' !in head
    ensures '\t' !in tail && '\r' !in tail && '\n' !in tail
    ensures head + tail == "https" + "://" + "h" + "" + "/" + "repo" + ".git" + ""
    ensures IsScheme("https") && '/' !in "h" && '?' !in "h" && '#' !in "h" && PlainNetloc("h")
    ensures '/' !in "repo" && '?' !in "repo" && '#' !in "repo" && ';' !in "repo"
  {
  }

  /** What `is_git_repo` decides, and the git invocations it made to decide it. */
  datatype Probe = Probe(isRepo: bool, gitCalls: seq<seq<string>>)

  /** The non-mutating check `is_git_repo` runs inside the candidate directory. */
  function RevParseArgv(path: Path): seq<string> {
    ["git", "-C", Render(path), "rev-parse", "--is-inside-work-tree"]
  }

  /** `is_git_repo` against a filesystem (`existing` paths, of which `directories`
      are directories) and git as an oracle giving the exit status of the check.
      Only the exit status is consulted; a non-zero one is a plain `false`. */
  function IsGitRepo(existing: set<Path>, directories: set<Path>, path: Path,
                     revParseExit: Path -> int): (p: Probe)
    ensures p.isRepo <==> path in existing && path in directories && revParseExit(path) == 0
    ensures path !in existing || path !in directories ==> p.gitCalls == []
    ensures path in existing && path in directories ==> p.gitCalls == [RevParseArgv(path)]
  {
    if path !in existing then Probe(false, [])
    else if path !in directories then Probe(false, [])
    else Probe(revParseExit(path) == 0, [RevParseArgv(path)])
  }
}

=== FILE: worktrees.dfy ===
/** `BaseDirWorkTreeGenerator`: plans the git invocations that give each
    branch a worktree under a freshly named staging directory. */
module Worktrees {
  import opened Wrappers
  import opened Paths
  import opened Git

  /** `n` consecutive characters starting at `lo`. */
  function CharRange(lo: char, n: nat): (r: string)
    requires lo as int + n <= 0xD800
    ensures |r| == n
    ensures forall i :: 0 <= i < n ==> r[i] as int == lo as int + i
  {
    seq(n, i requires 0 <= i < n => (lo as int + i) as char)
  }

  /** `string.ascii_letters + string.digits`, in that order. */
  const Alphabet: string := CharRange('a', 26) + CharRange('A', 26) + CharRange('0', 10)

  predicate IsAlnum(c: char) {
    'a' <= c <= 'z' || 'A' <= c <= 'Z' || '0' <= c <= '9'
  }

  lemma AlphabetIsAlnum(k: nat)
    requires k < |Alphabet|
    ensures IsAlnum(Alphabet[k])
  {
    if k < 26 {
      assert Alphabet[k] == CharRange('a', 26)[k];
    } else if k < 52 {
      assert Alphabet[k] == CharRange('A', 26)[k - 26];
    } else {
      assert Alphabet[k] == CharRange('0', 10)[k - 52];
    }
  }

  /** Where `c` sits in the alphabet. */
  function AlphabetIndex(c: char): (k: nat)
    requires IsAlnum(c)
    ensures k < |Alphabet| && Alphabet[k] == c
  {
    if 'a' <= c <= 'z' then
      assert Alphabet[c as int - 'a' as int] == CharRange('a', 26)[c as int - 'a' as int];
      c as int - 'a' as int
    else if 'A' <= c <= 'Z' then
      assert Alphabet[26 + c as int - 'A' as int] == CharRange('A', 26)[c as int - 'A' as int];
      26 + c as int - 'A' as int
    else
      assert Alphabet[52 + c as int - '0' as int] == CharRange('0', 10)[c as int - '0' as int];
      52 + c as int - '0' as int
  }

  const DefaultRandomDirLen: int := 10

  /** The generator's configuration: where staging directories go and how
      long their random names are. */
  datatype Generator = Generator(baseDir: Path, randomDirLen: int)

  /** `BaseDirWorkTreeGenerator(base_dir)` with the default name length. */
  function DefaultGenerator(baseDir: Path): (g: Generator)
    ensures g.baseDir == baseDir && g.randomDirLen == 10
  {
    Generator(baseDir, DefaultRandomDirLen)
  }

  /** The staging directory name: one alphabet draw per position, `pick(i)`
      standing for the `i`-th `random.choice`; `range` of a non-positive
      length draws nothing. */
  function RandomName(len: int, pick: nat -> nat): (name: string)
    ensures |name| == if len < 0 then 0 else len
    ensures forall i :: 0 <= i < |name| ==> IsAlnum(name[i])
  {
    var name := seq(if len < 0 then 0 else len, i requires 0 <= i => Alphabet[pick(i) % |Alphabet|]);
    assert forall i :: 0 <= i < |name| ==> IsAlnum(name[i]) by {
      forall i | 0 <= i < |name| ensures IsAlnum(name[i]) {
        AlphabetIsAlnum(pick(i) % |Alphabet|);
      }
    }
    name
  }

  /** A choice stream that draws exactly `s`. */
  function PickFor(s: string): nat -> nat {
    (i: nat) => if i < |s| && IsAlnum(s[i]) then AlphabetIndex(s[i]) else 0
  }

  /** Every name of the right length over the alphabet can be drawn: the
      names drawn are exactly the alphanumeric strings of that length. */
  lemma RandomNameCovers(s: string)
    requires forall i :: 0 <= i < |s| ==> IsAlnum(s[i])
    ensures RandomName(|s|, PickFor(s)) == s
  {
    var name := RandomName(|s|, PickFor(s));
    forall i | 0 <= i < |s| ensures name[i] == s[i] {
      var k := AlphabetIndex(s[i]);
      assert PickFor(s)(i) == k;
      assert k % |Alphabet| == k;
    }
  }

  /** A drawn name is one path component, or none when it is empty. */
  lemma RandomNameParses(len: int, pick: nat -> nat)
    ensures var name := RandomName(len, pick);
      Parse(name) == Path(false, if len <= 0 then [] else [name])
  {
    var name := RandomName(len, pick);
    assert '/' !in name by {
      forall i | 0 <= i < |name| ensures name[i] != '/' {
        assert IsAlnum(name[i]);
      }
    }
    if |name| > 0 {
      assert IsAlnum(name[0]);
      assert name != ".";
    }
    ParseSingle(name);
  }

  /** `Path(random_base_dir, branch)`: where a branch's worktree goes. */
  function BranchDir(staging: Path, branch: string): Path {
    Join(staging, Parse(branch))
  }

  function InitialCommitMessage(branch: string): string {
    "initial commit for branch: " + branch
  }

  /** The invocations for one branch: its `worktree add`, then, for an
      orphan branch, one empty commit run inside the new worktree. */
  function BranchCommands(staging: Path, branch: string, orphan: bool): seq<Command> {
    var dir := BranchDir(staging, branch);
    [AddWorktree(dir, orphan, branch)]
      + (if orphan then [Commit(dir, InitialCommitMessage(branch))] else [])
  }

  /** The invocations for the branches, in the order given. */
  function PlanCommands(staging: Path, branches: seq<string>, orphan: bool): seq<Command> {
    if |branches| == 0 then []
    else BranchCommands(staging, branches[0], orphan) + PlanCommands(staging, branches[1..], orphan)
  }

  /** With `orphan`, the plan is `2n` commands: branch `i`'s `worktree add`
      at `2i`, immediately followed by its empty commit at `2i + 1`. */
  lemma {:induction false} OrphanPlanLayout(staging: Path, branches: seq<string>)
    ensures var cmds := PlanCommands(staging, branches, true);
      && |cmds| == 2 * |branches|
      && (forall i :: 0 <= i < |branches| ==>
            cmds[2 * i] == AddWorktree(BranchDir(staging, branches[i]), true, branches[i]))
      && (forall i :: 0 <= i < |branches| ==>
            cmds[2 * i + 1] == Commit(BranchDir(staging, branches[i]), InitialCommitMessage(branches[i])))
  {
    if |branches| > 0 {
      OrphanPlanLayout(staging, branches[1..]);
      var cmds := PlanCommands(staging, branches, true);
      var rest := PlanCommands(staging, branches[1..], true);
      assert cmds == BranchCommands(staging, branches[0], true) + rest;
      forall i | 1 <= i < |branches|
        ensures cmds[2 * i] == AddWorktree(BranchDir(staging, branches[i]), true, branches[i])
        ensures cmds[2 * i + 1] == Commit(BranchDir(staging, branches[i]), InitialCommitMessage(branches[i]))
      {
        assert branches[i] == branches[1..][i - 1];
        assert cmds[2 * i] == rest[2 * (i - 1)];
        assert cmds[2 * i + 1] == rest[2 * (i - 1) + 1];
      }
    }
  }

  /** Without `orphan`, the plan is `n` commands, branch `i`'s `worktree add`
      at `i`, and no commit at all. */
  lemma {:induction false} PlainPlanLayout(staging: Path, branches: seq<string>)
    ensures var cmds := PlanCommands(staging, branches, false);
      && |cmds| == |branches|
      && (forall i :: 0 <= i < |branches| ==>
            cmds[i] == AddWorktree(BranchDir(staging, branches[i]), false, branches[i]))
  {
    if |branches| > 0 {
      PlainPlanLayout(staging, branches[1..]);
      var cmds := PlanCommands(staging, branches, false);
      var rest := PlanCommands(staging, branches[1..], false);
      assert cmds == BranchCommands(staging, branches[0], false) + rest;
      forall i | 1 <= i < |branches|
        ensures cmds[i] == AddWorktree(BranchDir(staging, branches[i]), false, branches[i])
      {
        assert branches[i] == branches[1..][i - 1];
        assert cmds[i] == rest[i - 1];
      }
    }
  }

  /** What `generate_worktree` returns, together with the invocations it issues. */
  datatype Plan = Plan(staging: Path, commands: seq<Command>)

  /** `generate_worktree(repo_path, for_branch, *for_branches, orphan=...)`.
      The commands run against the repository at `repoPath`. */
  function GenerateWorktree(g: Generator, repoPath: Path, forBranch: string,
                            forBranches: seq<string>, orphan: bool, pick: nat -> nat): (plan: Plan)
    ensures g.randomDirLen <= 0 ==> plan.staging == g.baseDir
    ensures g.randomDirLen > 0 ==>
      && plan.staging.absolute == g.baseDir.absolute
      && plan.staging.segments == g.baseDir.segments + [RandomName(g.randomDirLen, pick)]
    ensures plan.commands == PlanCommands(plan.staging, [forBranch] + forBranches, orphan)
    ensures |plan.commands| == (if orphan then 2 else 1) * (1 + |forBranches|)
    ensures forall i :: 0 <= i < |[forBranch] + forBranches| ==>
      var b := ([forBranch] + forBranches)[i];
      !(|b| > 0 && b[0] == '/') ==> Within(BranchDir(plan.staging, b), plan.staging)
  {
    var name := RandomName(g.randomDirLen, pick);
    RandomNameParses(g.randomDirLen, pick);
    var staging := Join(g.baseDir, Parse(name));
    var cmds := PlanCommands(staging, [forBranch] + forBranches, orphan);
    assert |cmds| == (if orphan then 2 else 1) * (1 + |forBranches|) by {
      if orphan {
        OrphanPlanLayout(staging, [forBranch] + forBranches);
      } else {
        PlainPlanLayout(staging, [forBranch] + forBranches);
      }
    }
    Plan(staging, cmds)
  }

  /** A branch name without `/` that is a single component gets its worktree
      directly beneath the staging directory. */
  lemma BranchDirDirectlyBeneath(staging: Path, branch: string)
    requires IsSegment(branch)
    ensures BranchDir(staging, branch) == Path(staging.absolute, staging.segments + [branch])
  {
    ParseSingle(branch);
  }

  /** The exact argument vectors: every `worktree add` carries `--orphan`
      exactly when `orphan` is set and names its branch after `-b`; with
      `orphan`, the commit right after it runs inside that branch's worktree. */
  lemma PlanArgv(staging: Path, branches: seq<string>, orphan: bool, i: nat)
    requires i < |branches|
    ensures var cmds := PlanCommands(staging, branches, orphan);
      var k := if orphan then 2 * i else i;
      k < |cmds| &&
      Argv(cmds[k]) == ["worktree", "add", Render(BranchDir(staging, branches[i]))]
                       + (if orphan then ["--orphan"] else []) + ["-b", branches[i]]
    ensures var cmds := PlanCommands(staging, branches, orphan);
      orphan ==> (2 * i + 1 < |cmds| &&
        Argv(cmds[2 * i + 1])
          == ["-C", Render(BranchDir(staging, branches[i])), "commit", "-m",
              "initial commit for branch: " + branches[i], "--allow-empty"])
  {
    if orphan {
      OrphanPlanLayout(staging, branches);
    } else {
      PlainPlanLayout(staging, branches);
    }
  }

  /** The branches named by the `worktree add` commands, in order. */
  function BranchesAdded(cmds: seq<Command>): seq<string> {
    if |cmds| == 0 then []
    else (if cmds[0].AddWorktree? then [cmds[0].branch] else []) + BranchesAdded(cmds[1..])
  }

  /** The number of commit commands. */
  function CommitCount(cmds: seq<Command>): nat {
    if |cmds| == 0 then 0
    else (if cmds[0].Commit? then 1 else 0) + CommitCount(cmds[1..])
  }

  lemma {:induction false} BranchesAddedAppend(a: seq<Command>, b: seq<Command>)
    ensures BranchesAdded(a + b) == BranchesAdded(a) + BranchesAdded(b)
    ensures CommitCount(a + b) == CommitCount(a) + CommitCount(b)
  {
    if |a| > 0 {
      assert (a + b)[1..] == a[1..] + b;
      BranchesAddedAppend(a[1..], b);
    } else {
      assert a + b == b;
    }
  }

  /** The plan visits exactly the given branches, in the given order, and
      commits once per branch when orphan, never otherwise. */
  lemma {:induction false} PlanVisitsBranches(staging: Path, branches: seq<string>, orphan: bool)
    ensures BranchesAdded(PlanCommands(staging, branches, orphan)) == branches
    ensures CommitCount(PlanCommands(staging, branches, orphan)) == if orphan then |branches| else 0
  {
    if |branches| > 0 {
      var dir := BranchDir(staging, branches[0]);
      var first := BranchCommands(staging, branches[0], orphan);
      var rest := PlanCommands(staging, branches[1..], orphan);
      BranchesAddedAppend(first, rest);
      PlanVisitsBranches(staging, branches[1..], orphan);
      if orphan {
        assert first[1..] == [Commit(dir, InitialCommitMessage(branches[0]))];
      }
      assert [branches[0]] + branches[1..] == branches;
    }
  }

  /** The worktrees a plan registers, in order. */
  function WorktreesFor(staging: Path, branches: seq<string>): (ws: seq<Worktree>)
    ensures |ws| == |branches|
  {
    if |branches| == 0 then []
    else
      [Worktree(BranchDir(staging, branches[0]), branches[0])] + WorktreesFor(staging, branches[1..])
  }

  /** One branch's commands either fail, leaving at most its worktree behind,
      or leave the branch existing with its worktree registered and on disk. */
  lemma BranchStep(r: Repo, staging: Path, b: string, orphan: bool)
    requires r.isRepo
    ensures var run := RunAll(r, BranchCommands(staging, b, orphan));
      var w := Worktree(BranchDir(staging, b), b);
      && Grows(r, run.state)
      && run.state.config == r.config
      && (run.state.worktrees == r.worktrees || run.state.worktrees == r.worktrees + [w])
      && (run.failed.None? ==>
            && run.state.worktrees == r.worktrees + [w]
            && b in run.state.branches
            && ValidBranchName(b)
            && w.path in run.state.dirs)
  {
    var dir := BranchDir(staging, b);
    var add := [AddWorktree(dir, orphan, b)];
    var commit := if orphan then [Commit(dir, InitialCommitMessage(b))] else [];
    assert BranchCommands(staging, b, orphan) == add + commit;
    RunAllAppend(r, add, commit);
    match Exec(r, AddWorktree(dir, orphan, b))
    case Failure(_) =>
    case Success(r1) =>
      assert add[1..] == [];
      assert dir in Ancestry(dir) by { assert dir.segments[..|dir.segments|] == dir.segments; }
      if orphan {
        assert commit[1..] == [];
      }
  }

  /** On a repository where the branch name is valid, the branch, its
      directory and its worktree are all new, no file is in the way and no
      existing ref clashes with it, an orphan branch's two commands
      succeed: the worktree is registered, its directories exist, and the
      empty commit brings the branch into being. */
  lemma OrphanStepSucceeds(r: Repo, staging: Path, b: string)
    requires r.isRepo
    requires ValidBranchName(b)
    requires b !in r.branches
    requires BranchDir(staging, b) !in r.dirs && Ancestry(BranchDir(staging, b)) !! r.files
    requires WorktreeAt(r.worktrees, BranchDir(staging, b)).None?
    requires !RefConflict(r.branches, b)
    ensures var dir := BranchDir(staging, b);
      RunAll(r, BranchCommands(staging, b, true))
        == Run(r.(branches := r.branches + {b},
                  dirs := r.dirs + Ancestry(dir),
                  worktrees := r.worktrees + [Worktree(dir, b)]), None)
  {
    var dir := BranchDir(staging, b);
    var cmds := BranchCommands(staging, b, true);
    var r1 := r.(dirs := r.dirs + Ancestry(dir), worktrees := r.worktrees + [Worktree(dir, b)]);
    assert Exec(r, cmds[0]) == Success(r1);
    assert cmds[1..] == [Commit(dir, InitialCommitMessage(b))];
    assert WorktreeAt(r1.worktrees, dir) == Some(Worktree(dir, b)) by {
      WorktreeAtAppend(r.worktrees, Worktree(dir, b));
    }
    var r2 := r1.(branches := r.branches + {b});
    assert Exec(r1, Commit(dir, InitialCommitMessage(b))) == Success(r2);
    assert RunAll(r1, cmds[1..]) == RunAll(r2, []);
    assert RunAll(r, cmds) == RunAll(r1, cmds[1..]);
  }

  /** The part of `BranchStep` about registered worktrees. */
  lemma BranchStepWorktrees(r: Repo, staging: Path, b: string, orphan: bool)
    requires r.isRepo
    ensures var run := RunAll(r, BranchCommands(staging, b, orphan));
      var w := Worktree(BranchDir(staging, b), b);
      && run.state.isRepo
      && (run.state.worktrees == r.worktrees || run.state.worktrees == r.worktrees + [w])
      && (run.failed.None? ==> run.state.worktrees == r.worktrees + [w])
  {
    BranchStep(r, staging, b, orphan);
  }

  /** Running a plan is running its first branch's commands, then, unless
      they failed, the rest of the plan. */
  lemma PlanStep(r: Repo, staging: Path, branches: seq<string>, orphan: bool)
    requires |branches| > 0
    ensures RunAll(r, PlanCommands(staging, branches, orphan))
      == var mid := RunAll(r, BranchCommands(staging, branches[0], orphan));
         if mid.failed.Some? then mid else RunAll(mid.state, PlanCommands(staging, branches[1..], orphan))
  {
    RunAllAppend(r, BranchCommands(staging, branches[0], orphan), PlanCommands(staging, branches[1..], orphan));
  }

  lemma WorktreesForPrefix(staging: Path, branches: seq<string>, k: nat)
    requires k < |branches|
    ensures WorktreesFor(staging, branches[..k + 1])
      == [Worktree(BranchDir(staging, branches[0]), branches[0])] + WorktreesFor(staging, branches[1..][..k])
  {
    assert branches[..k + 1][1..] == branches[1..][..k];
  }

  /** A prefix of the branches with the first one's worktree in front is a
      prefix of the whole list. */
  lemma PrefixAfterStep(before: seq<Worktree>, after: seq<Worktree>, staging: Path,
                        branches: seq<string>)
    requires |branches| > 0
    requires |before| + 1 <= |after| <= |before| + |branches|
    requires after == (before + [Worktree(BranchDir(staging, branches[0]), branches[0])])
                      + WorktreesFor(staging, branches[1..][..|after| - |before| - 1])
    ensures after == before + WorktreesFor(staging, branches[..|after| - |before|])
  {
    WorktreesForPrefix(staging, branches, |after| - |before| - 1);
  }

  /** Whatever happens, the worktrees registered are those of a prefix of the
      branches, in order: there is no rollback of a partly run plan. */
  lemma {:induction false} PlanLeavesPrefix(r: Repo, staging: Path, branches: seq<string>, orphan: bool)
    requires r.isRepo
    ensures var ws := RunAll(r, PlanCommands(staging, branches, orphan)).state.worktrees;
      && |r.worktrees| <= |ws| <= |r.worktrees| + |branches|
      && ws == r.worktrees + WorktreesFor(staging, branches[..|ws| - |r.worktrees|])
    decreases |branches|
  {
    var ws := RunAll(r, PlanCommands(staging, branches, orphan)).state.worktrees;
    if |branches| == 0 {
      assert branches[..0] == [];
    } else {
      var b := branches[0];
      var w := Worktree(BranchDir(staging, b), b);
      PlanStep(r, staging, branches, orphan);
      BranchStepWorktrees(r, staging, b, orphan);
      var mid := RunAll(r, BranchCommands(staging, b, orphan));
      if mid.failed.Some? && ws == r.worktrees {
        assert branches[..0] == [];
      } else {
        if mid.failed.None? {
          PlanLeavesPrefix(mid.state, staging, branches[1..], orphan);
        } else {
          assert branches[1..][..0] == [];
        }
        PrefixAfterStep(r.worktrees, ws, staging, branches);
      }
    }
  }

  /** A plan issues only `worktree add` and commit commands. */
  lemma {:induction false} PlanNoConfigWrites(staging: Path, branches: seq<string>, orphan: bool)
    ensures NoConfigWrites(PlanCommands(staging, branches, orphan))
    decreases |branches|
  {
    if |branches| > 0 {
      var a := BranchCommands(staging, branches[0], orphan);
      var c := PlanCommands(staging, branches[1..], orphan);
      PlanNoConfigWrites(staging, branches[1..], orphan);
      var cmds: seq<Command> := a + c;
      assert PlanCommands(staging, branches, orphan) == cmds;
      forall i | 0 <= i < |cmds| ensures !cmds[i].SetConfig? && !cmds[i].InitRepo? {
        if i >= |a| {
          assert cmds[i] == c[i - |a|];
        }
      }
    }
  }

  /** Whatever happens, running a plan removes nothing and leaves the config
      untouched. */
  lemma PlanGrows(r: Repo, staging: Path, branches: seq<string>, orphan: bool)
    requires r.isRepo
    ensures var s := RunAll(r, PlanCommands(staging, branches, orphan)).state;
      Grows(r, s) && s.config == r.config
  {
    RunAllGrows(r, PlanCommands(staging, branches, orphan));
    PlanNoConfigWrites(staging, branches, orphan);
  }

  /** When the whole plan runs, every branch exists under a valid name, its
      worktree is registered in order and its directory is on disk. */
  lemma {:induction false} PlanComplete(r: Repo, staging: Path, branches: seq<string>, orphan: bool)
    requires r.isRepo
    requires RunAll(r, PlanCommands(staging, branches, orphan)).failed.None?
    ensures var s := RunAll(r, PlanCommands(staging, branches, orphan)).state;
      && s.worktrees == r.worktrees + WorktreesFor(staging, branches)
      && (forall b :: b in branches ==>
            ValidBranchName(b) && b in s.branches && BranchDir(staging, b) in s.dirs)
    decreases |branches|
  {
    if |branches| > 0 {
      var b := branches[0];
      PlanStep(r, staging, branches, orphan);
      BranchStep(r, staging, b, orphan);
      var mid := RunAll(r, BranchCommands(staging, b, orphan));
      assert mid.failed.None?;
      PlanComplete(mid.state, staging, branches[1..], orphan);
      PlanGrows(mid.state, staging, branches[1..], orphan);
      var s := RunAll(mid.state, PlanCommands(staging, branches[1..], orphan)).state;
      assert b in s.branches;
      assert BranchDir(staging, b) in s.dirs;
      assert WorktreesFor(staging, branches)
        == [Worktree(BranchDir(staging, b), b)] + WorktreesFor(staging, branches[1..]);
      forall x | x in branches
        ensures ValidBranchName(x) && x in s.branches && BranchDir(staging, x) in s.dirs
      {
        if x != b {
          var i :| 0 <= i < |branches| && branches[i] == x;
          assert branches[1..][i - 1] == x;
        }
      }
    }
  }
}

=== FILE: wrappers.dfy ===
/** `Option` and `Result`: the optional values and step outcomes shared by the other modules. */
module Wrappers {

  /** An optional value: Python's `X | None`. */
  datatype Option<+T> = None | Some(value: T)

  /** Either a value or the error that a step raised instead. */
  datatype Result<+T, +E> = Success(value: T) | Failure(error: E)
}
